=== FILE: README.md ===
# FortiGate inventory plugin: the device-to-inventory mapping

This project models the pure core of the Ansible dynamic-inventory plugin
`evonck.fortigate.inventory`. The plugin asks a FortiGate controller for its
managed FortiSwitches and FortiAPs. For each device record it then:

- registers the device as an inventory host;
- sets host variables;
- puts the host into groups named after some of those variables.

The model covers the following pieces.

- **The extractors**:
  - five pass-through extractors that lower-case one field;
  - the two regular-expression extractors on `os_version`, written as character scans;
  - the part-number lookup `extract_device_type`;
  - the PoE classifier `extract_poe_capable`;
  - the group-name sanitiser `_generate_safe_group_name`.

  Each is a pure function from a device record to `Result<Json, Error>`. The
  error cases are the Python exceptions the code raises, such as `TypeError`
  for `re.search` on None, `KeyError` for `host["os_version"]`, and
  `AnsibleError` for no match.
- **The extractor tables** `variable_extractors` and `group_extractors`. They
  are sequences of (variable name, extractor function) pairs, in the dicts'
  insertion order.
- **One host** (`_fill_host_variables`, `_fill_host_group_variables` and the
  body of the per-host loop of `parse`). Processing a host produces the list
  of inventory calls it makes, in order:
  - `add_host`;
  - `set_variable`;
  - `add_group`;
  - `add_host(group=…)`.

  It also produces the exception that stopped it, if any. The inventory is an
  abstract state: a host set, a map from (host, variable) to value, and a map
  from group to members. Calls made before an exception stay applied, as they
  do in the plugin.
- **All hosts**: the two nested loops of `parse` over the fetched devices.
- **`verify_file`**: its file-name test. The base class's verdict is a parameter.

Modules:

- `Wrappers`: `Option` and `Result`.
- `JsonValue`: JSON values, `dict.get` and Python truthiness.
- `Errors`: the exception kinds.
- `Text`: ASCII `lower` and `isdigit`, `replace` and `endswith`, and the
  first- and last-occurrence scans that stand in for the regular expressions.
- `Extractors`: the extractors and the sanitiser.
- `InventoryState`: the inventory and its four calls.
- `InventoryPlugin`: the tables, one host, the loops, and `verify_file`.

The main results:

- **The sanitiser.**
  - It is characterised pointwise.
  - Its result is always a safe group name.
  - It leaves safe names unchanged and is idempotent.
- **The extractors.**
  - Each is characterised against an independent description of its regular
    expression or table, including when it fails.
- **One host without an exception.** After processing:
  - all nine variables hold their extractors' values: `ansible_host` is the
    lower-cased `connecting_from`, because the extractor overwrites the raw
    value set first; `device_vendor` is `"fortinet"`; `device_platform` is
    the lower-cased endpoint; the others are the extractors' results on the
    fetched record;
  - the host is in exactly the groups it was in before, plus the sanitised
    values of the five group extractors;
  - no other host's variables or memberships changed.
- **One host that raises part-way.** The calls made before the exception
  stay applied and nothing after it runs. If a variable extractor raises, the
  host joins no group. Otherwise every group extractor before the first
  failing one has written its value and added the host to its group.
- **Idempotence.** Processing a record twice, or running `parse` twice on the
  same devices, leaves the same inventory as doing it once.

## Model

| member | source | states |
|---|---|---|
| Text.Lower | plugins/inventory/inventory.py:75 | `str.lower` keeps the length and lower-cases each character on its own (ASCII) |
| Text.LowerIsFixedPoint | plugins/inventory/inventory.py:75 | a lower-cased string has no upper-case letter, and lower-casing it again changes nothing |
| Text.ReplacePointwise | plugins/inventory/inventory.py:198-199 | `str.replace` of one character (`Replace`) keeps the length; every occurrence of the target becomes the replacement and every other character stays in place |
| Text.IndexOf | plugins/inventory/inventory.py:141 | the position found holds the character and nothing before it does; None exactly when the character is absent |
| Text.EndsWithIsConcat | plugins/inventory/inventory.py:56 | `path.endswith(suffix)` holds exactly when the path is some text followed by the suffix |
| Extractors.LowerField | plugins/inventory/inventory.py:71-109 | a pass-through extractor returns None for a missing key, the lower-case of a string, and any other value unchanged; a string result is a fixed point of lower-casing |
| Extractors.MatchOsVersionCorrect | plugins/inventory/inventory.py:112 | `MatchOsVersion`, the scan for `re.search` at this line, finds a capture exactly when `^[^-]*-v` matches (the first `-` is followed by `v`), and the capture is everything after that `-v` up to the next `-` or the end |
| Extractors.OsVersionOfParts | plugins/inventory/inventory.py:111-117 | `PART-vVERSION-REST` with no `-` in PART or VERSION yields VERSION, e.g. `FS1E48-v6.2.3-build123-FORTINET` gives `6.2.3` |
| Extractors.ExtractOsVersion | plugins/inventory/inventory.py:111-117 | `TypeError` when `os_version` is not a string; otherwise success exactly when the pattern matches, and then the lower-cased capture, which holds no `-`; on no match `AnsibleError("Failed to extract_os_version")` |
| Extractors.LineRelease | plugins/inventory/inventory.py:120 | on one line, `-.*-(.*)` matches exactly when there are two `-`; the capture follows a `-` and holds no `-` |
| Extractors.ReleaseMatchesSplit | plugins/inventory/inventory.py:120 | `.` does not cross a newline: the search matches the text exactly when it matches the first line or the rest |
| Extractors.MatchOsRelease | plugins/inventory/inventory.py:120-123 | the line-by-line scan succeeds exactly when the unanchored search matches; the capture holds no `-` or newline and, on one line, is the text after a `-` |
| Extractors.MatchOsReleaseLeftmost | plugins/inventory/inventory.py:120-123 | the search takes the leftmost matching line: when the first line holds two `-` the capture comes from that line, otherwise the search continues after the first newline |
| Extractors.ExtractOsRelease | plugins/inventory/inventory.py:119-125 | `TypeError` when `os_version` is not a string; otherwise success exactly when the search matches, returning a string without `-`; on no match the same `AnsibleError("Failed to extract_os_version")` |
| Extractors.OsReleaseSingleLine | plugins/inventory/inventory.py:119-125 | without newlines: success exactly when there are at least two `-`, and the result is the lower-cased text after the last `-` |
| Extractors.PartNumber | plugins/inventory/inventory.py:141 | `re.search(r"^[^-]*", s).group(0)` is the longest dash-free prefix: all of `s`, or the text before its first `-` |
| Extractors.ModelNamesDistinct | plugins/inventory/inventory.py:130-136 | no two part numbers of `part_model_mapping` share a model name |
| Extractors.ExtractDeviceType | plugins/inventory/inventory.py:140-143 | `KeyError("os_version")` when the key is missing, `TypeError` when it is not a string, otherwise a model name from `part_model_mapping` or None |
| Extractors.DeviceTypeOfPart | plugins/inventory/inventory.py:127-143 | for every table part, the result is that part's model exactly when `os_version` names the part (all of it, or followed by `-`); None exactly when it names none, so the case-sensitive lookup rejects `s548df-…` |
| Extractors.DeviceTypeOfParts | plugins/inventory/inventory.py:127-143 | an `os_version` of the form `PART-…` with PART in the table gives PART's model, e.g. `FS1E48-…` gives `fs-1048e` |
| Extractors.AnyPoePort | plugins/inventory/inventory.py:148-150 | walking a port list fails, with `AttributeError`, exactly when some element is not a dict; otherwise the comprehension is non-empty exactly when some port has a truthy `poe_capable` |
| Extractors.PortsHavePoe | plugins/inventory/inventory.py:148-150 | `for i in ports`: a list is walked; an empty string or dict yields nothing, a non-empty one fails on `i.get`; None, a boolean or a number is not iterable (`TypeError`) |
| Extractors.ExtractPoeCapable | plugins/inventory/inventory.py:145-154 | the result is `"poe_switch"` or `"no_poe_switch"`; `"poe_switch"` exactly when `ports` is a list of dicts with some truthy `poe_capable`; `[]` gives `"no_poe_switch"`; a missing `ports` raises `TypeError` |
| Extractors.SafeGroupNameOfString | plugins/inventory/inventory.py:184-201 | on a string, `group_name[0]` raises `IndexError` exactly on ""; every other string is sanitised |
| Extractors.SanitisedPointwise | plugins/inventory/inventory.py:184-201 | the sanitised name has `_` in front exactly when the first character is a digit, then the input with every `-`, `.` and space replaced by `_` and every other character kept in place |
| Extractors.SanitisedIsSafe | plugins/inventory/inventory.py:184-201 | a sanitised name is non-empty, has no leading digit and holds no `-`, `.` or space |
| Extractors.SafeNameUnchanged | plugins/inventory/inventory.py:188-201 | a non-empty name with no leading digit and none of `-`, `.`, space is returned unchanged |
| Extractors.SanitiseIdempotent | plugins/inventory/inventory.py:184-201 | sanitising twice gives the same as sanitising once |
| Extractors.SafeGroupName | plugins/inventory/inventory.py:184-201 | on an extractor's value: it succeeds exactly on a non-empty string, and then gives that string's sanitised name, which is safe; None, a boolean or a number raises `TypeError` (not subscriptable); "" and `[]` raise `IndexError`; a dict raises `KeyError(0)`; a non-empty list raises `AttributeError` |
| InventoryState.ApplyHosts | plugins/inventory/inventory.py:249-257 | after a run of inventory calls a host is registered exactly when it was before, or some call was its `add_host`, with or without a group |
| InventoryState.ApplyUntouchedVar | plugins/inventory/inventory.py:168-182 | a host variable that no `set_variable` of the run names keeps its presence and its value |
| InventoryState.ApplyMembership | plugins/inventory/inventory.py:181-182 | after a run of inventory calls a host is in a group exactly when it was before or one of the calls added it |
| InventoryState.ApplyTwice | plugins/inventory/inventory.py:178-182 | applying the same run of `add_host`, `set_variable` and `add_group` calls twice leaves the inventory as applying it once |
| InventoryPlugin.VariableCalls | plugins/inventory/inventory.py:168-172 | `_fill_host_variables` (`FillHostVariables`) writes each extractor's value under its name in table order; it stops at the first extractor that raises and passes that exception on |
| InventoryPlugin.GroupCallsSucceed | plugins/inventory/inventory.py:174-182 | `_fill_host_group_variables` (`FillHostGroupVariables`) completes exactly when every group extractor and every sanitised group name succeeds |
| InventoryPlugin.GroupCallsFromRules | plugins/inventory/inventory.py:174-182 | every call it makes is an extractor's `set_variable`, or the `add_group` or `add_host` of that extractor's sanitised group |
| InventoryPlugin.GroupCallsComplete | plugins/inventory/inventory.py:174-182 | when nothing raises, every extractor's variable is written and the host is added to every extractor's sanitised group |
| InventoryPlugin.FirstGroupFailure | plugins/inventory/inventory.py:174-182 | the index of the first group extractor whose value or sanitised group name raises, or the table's length: every extractor before it succeeds on both counts and it fails on one |
| InventoryPlugin.GroupCallsShape | plugins/inventory/inventory.py:174-182 | with `k` the first failing extractor, `_fill_host_group_variables` makes `3k` calls, plus one when extractor `k`'s value succeeded and only its sanitiser raised; it raises exactly when some extractor fails, and then that extractor's exception |
| InventoryPlugin.GroupCallsOrder | plugins/inventory/inventory.py:174-182 | for each extractor `j` before the first failing one, calls `3j`, `3j+1`, `3j+2` are its `set_variable` of its value, `add_group` of its sanitised name and `add_host` of this host to that group |
| InventoryPlugin.GroupCallsLast | plugins/inventory/inventory.py:176-180 | when the first failing extractor `k` returned a value and only the sanitiser raised, call `3k` is its `set_variable` of that value |
| InventoryPlugin.GroupCalls | plugins/inventory/inventory.py:174-182 | the exact call list: the number of calls, the three calls of every extractor before the first failing one in order, the trailing `set_variable` when only the sanitiser raised, nothing after it, and the exception passed on |
| InventoryPlugin.GroupCallsWriteBefore | plugins/inventory/inventory.py:174-182 | every `set_variable` of the group fill is that of an extractor no later than the first failing one, under its name with its value |
| InventoryPlugin.GroupFillSkips | plugins/inventory/inventory.py:174-182 | a variable named by none of the extractors up to a failing one is never written: nothing after the first failure runs |
| InventoryPlugin.GroupCallsFailure | plugins/inventory/inventory.py:174-182 | an exception comes from the first extractor whose value or group name raises; if only the sanitiser raised, that extractor's variable was already written |
| InventoryPlugin.UnknownPartStopsHost | plugins/inventory/inventory.py:174-190 | when `os_version` names no part of the table, `_fill_host_group_variables` raises and never writes `poe_switch`; when the three extractors before `device_type` succeed, `device_type` is set to None and the exception is the sanitiser's `TypeError` |
| InventoryPlugin.MissingPortsStopsHost | plugins/inventory/inventory.py:145-182 | when a record has no `ports`, `_fill_host_group_variables` raises and never writes `poe_switch`; when the four extractors before it succeed, the exception is `TypeError` |
| InventoryPlugin.Annotate | plugins/inventory/inventory.py:254-255 | the record gains `device_platform` = endpoint and `device_vendor` = "Fortinet", and every other field is kept |
| InventoryPlugin.FillHostAnsibleHost | plugins/inventory/inventory.py:168-182 | whether or not a later extractor raises, the two fills leave `ansible_host` holding the lower-cased `connecting_from` |
| InventoryPlugin.HostRegisteredFirst | plugins/inventory/inventory.py:249-257 | a host with a usable name is registered, and ends with `ansible_host` holding the lower-cased `connecting_from`, whatever the later extractors do |
| InventoryPlugin.FillHostMemberships | plugins/inventory/inventory.py:256-257 | when both fills succeed, the only memberships added are of this host in the groups named by the group extractors, and every one of them is added |
| InventoryPlugin.ExtractorKeysDistinct | plugins/inventory/inventory.py:60-166 | the nine names of `variable_extractors` and `group_extractors` are pairwise distinct, so no extractor's write is overwritten by another's |
| InventoryPlugin.FillHostWrite | plugins/inventory/inventory.py:168-182 | every `set_variable` of the two fills is on this host, under some extractor's name, with that extractor's successful value |
| InventoryPlugin.FillHostConcerns | plugins/inventory/inventory.py:168-182 | the two fills make no plain `add_host`; they write only this host's extractor variables and add only this host to groups |
| InventoryPlugin.VariablesAllWritten | plugins/inventory/inventory.py:168-172 | when `_fill_host_variables` completes, every variable extractor succeeded and its value was written under its name |
| InventoryPlugin.FillHostWritesAll | plugins/inventory/inventory.py:168-182 | when both fills complete, every one of the nine extractors succeeded and its value was written for this host |
| InventoryPlugin.FillHostFinalVar | plugins/inventory/inventory.py:168-182 | when both fills complete, each extractor's variable ends up holding that extractor's value |
| InventoryPlugin.HostOpsConcern | plugins/inventory/inventory.py:249-257 | every inventory call made for a host record (`HostOps`) concerns that host only: its registration, its extractor variables, its group memberships |
| InventoryPlugin.UnusableRecordChangesNothing | plugins/inventory/inventory.py:249-250 | a record that is not a dict raises `TypeError`, one without `name` raises `KeyError("name")`, one whose name is not a non-empty string is refused; in each case the inventory is unchanged |
| InventoryPlugin.AnnotateKeeps | plugins/inventory/inventory.py:254-255 | the two `host.update` calls leave every other field, present or absent, as it was |
| InventoryPlugin.AnnotatedPassThrough | plugins/inventory/inventory.py:60-109 | on the updated record, `ansible_host`, `device_serial` and `device_status` are the lower-cased `connecting_from`, `serial` and `status` of the fetched record |
| InventoryPlugin.AnnotatedVendor | plugins/inventory/inventory.py:255 | on the updated record, `device_vendor` extracts as "fortinet", whatever the fetched record held |
| InventoryPlugin.AnnotatedPlatform | plugins/inventory/inventory.py:254 | on the updated record, `device_platform` extracts as the lower-cased endpoint, whatever the fetched record held |
| InventoryPlugin.AnnotatedOsVersion | plugins/inventory/inventory.py:111-125 | the update does not touch `os_version`: the release and version extractors give on the updated record what they give on the fetched one |
| InventoryPlugin.AnnotatedDevice | plugins/inventory/inventory.py:127-154 | the update does not touch `os_version` or `ports`: device type and PoE class are those of the fetched record |
| InventoryPlugin.ProcessedHostVariables | plugins/inventory/inventory.py:249-257 | after a host is processed without exception (`ProcessHost`), each of the nine extractor variables holds its extractor's value on the updated record |
| InventoryPlugin.ProcessHostFrameVars | plugins/inventory/inventory.py:249-257 | processing a host never creates, deletes or changes another host's variables, nor this host's variables outside the nine extractor names |
| InventoryPlugin.ProcessHostFrameHosts | plugins/inventory/inventory.py:249-257 | processing a host with a usable name adds exactly that host to the host set, whether or not an extractor raises later |
| InventoryPlugin.ProcessHostFrameGroups | plugins/inventory/inventory.py:249-257 | processing a host never changes another host's group memberships |
| InventoryPlugin.ProcessedHostGroups | plugins/inventory/inventory.py:174-182 | after a host is processed without exception, it is in exactly its earlier groups plus the sanitised group-extractor values |
| InventoryPlugin.ProcessedHost | plugins/inventory/inventory.py:246-257 | after a host is processed without exception: the host set grew by this host only; `ansible_host`, `device_serial` and `device_status` are the lower-cased `connecting_from`, `serial` and `status` (the raw `ansible_host` is overwritten); `device_vendor` is "fortinet"; `device_platform` is the lower-cased endpoint; release, version, device type and PoE class are the extractors' successful values on the fetched record; the host is in exactly its earlier groups plus the sanitised group-extractor values; every other host's variables and memberships are unchanged |
| InventoryPlugin.TableKeysDistinct | plugins/inventory/inventory.py:60-166 | no group extractor shares its variable name with a variable extractor, with the raw `ansible_host` or with another group extractor |
| InventoryPlugin.HostOpsFinalVar | plugins/inventory/inventory.py:168-182 | once `FillHost` has written an extractor's value, that value is the host's final value for the name, whatever runs or raises afterwards |
| InventoryPlugin.VariableWriteKept | plugins/inventory/inventory.py:168-172 | a variable extractor's written value is the host's final value after processing |
| InventoryPlugin.GroupWriteKept | plugins/inventory/inventory.py:174-178 | a group extractor's written value is the host's final value after processing |
| InventoryPlugin.GroupCallsMemberBefore | plugins/inventory/inventory.py:174-182 | every `add_host(group=…)` of the group fill puts this host in the group of an extractor before the first failing one |
| InventoryPlugin.GroupMembersExactly | plugins/inventory/inventory.py:174-182 | the group fill adds exactly this host to exactly the groups of the extractors before the first failing one |
| InventoryPlugin.VariablesFailWrites | plugins/inventory/inventory.py:168-172 | when a variable extractor raises, its exception is passed on and the extractors before it keep their values |
| InventoryPlugin.VariablesFailSkipsGroups | plugins/inventory/inventory.py:256-257 | when a variable extractor raises, the group fill never runs: the host joins no group and no group extractor's variable changes |
| InventoryPlugin.GroupsFailVariables | plugins/inventory/inventory.py:256-257 | when the variable fill completes, all four variable extractors' values are kept and the group fill's exception is passed on |
| InventoryPlugin.GroupCallsAtIndex | plugins/inventory/inventory.py:174-182 | an extractor before the first failing one made its `set_variable`, `add_group` and `add_host` at positions `3j` to `3j+2` |
| InventoryPlugin.GroupsFailKeptAt | plugins/inventory/inventory.py:174-178 | when the variable fill completes, every group extractor before the first failing one keeps its written value |
| InventoryPlugin.GroupsFailJoinedAt | plugins/inventory/inventory.py:180-182 | when the variable fill completes, every group extractor before the first failing one has put the host in its sanitised group |
| InventoryPlugin.GroupsFailLastWrite | plugins/inventory/inventory.py:176-180 | when the first failing group extractor returned a value and only the sanitiser raised, the host keeps that value |
| InventoryPlugin.GroupsFailMembership | plugins/inventory/inventory.py:174-182 | after processing, the host is in exactly its earlier groups plus the groups of the group extractors before the first failing one |
| InventoryPlugin.GroupsFailUnwritten | plugins/inventory/inventory.py:174-182 | a group extractor after the first failing one leaves its variable as it was |
| InventoryPlugin.ProcessHostVariablesFail | plugins/inventory/inventory.py:256-257 | a host whose variable extractor raises: the exception is passed on, the host joins no group, and every group extractor's variable is as it was |
| InventoryPlugin.ProcessHostGroupsFail | plugins/inventory/inventory.py:174-182 | a host whose variable fill completes: the group fill's exception is passed on, every group extractor before the first failing one has written its value and added the host to its group, and the later ones have written nothing |
| InventoryPlugin.ProcessHostFailure | plugins/inventory/inventory.py:246-257 | how a host that raises part-way leaves the inventory: a variable extractor's exception is passed on with no group joined and no group variable changed; otherwise the group fill's exception is passed on, every group extractor before the first failing one has written its value and added the host to its group, and the later ones have written nothing |
| InventoryPlugin.ProcessHostIdempotent | plugins/inventory/inventory.py:249-257 | processing the same record again leaves the inventory it left, with the same outcome |
| InventoryPlugin.Then | plugins/inventory/inventory.py:247-257 | running one piece of processing then the next keeps the first one's calls, and completes exactly when both complete |
| InventoryPlugin.EndpointOps | plugins/inventory/inventory.py:248-257 | the inner loop over one endpoint's hosts completes exactly when every host is processed without exception |
| InventoryPlugin.DevicesOps | plugins/inventory/inventory.py:247-257 | the outer loop over the endpoints completes exactly when every host of every endpoint is processed without exception |
| InventoryPlugin.ParseSkipsEmptyEndpoint | plugins/inventory/inventory.py:247-248 | in `Parse` (the loops `DevicesOps` and `EndpointOps`), an endpoint with no hosts contributes nothing |
| InventoryPlugin.ParseHostByHost | plugins/inventory/inventory.py:247-257 | `parse` processes the first host, stops if it raised, and otherwise goes on with the remaining hosts from the inventory that host left |
| InventoryPlugin.ParseSwitchesFirst | plugins/inventory/inventory.py:221-230 | on `get_devices` (`GetDevices`), `parse` processes every switch before any access point, and reaches the access points only when no switch raised, starting from the inventory the switches left |
| InventoryPlugin.ParseIdempotent | plugins/inventory/inventory.py:246-257 | running the loops of `parse` twice on the same devices leaves the same inventory and outcome as running them once |
| InventoryPlugin.VerifyFile | plugins/inventory/inventory.py:51-58 | a path is accepted exactly when the base class accepts it and it ends in `fortigate.yaml` or `fortigate.yml` |

## Left out

- Fetching devices (`get_switches`, `get_access_points`, lines 203-219) is left out because it is HTTP I/O. `get_devices` (221-230) keeps only its order, as `GetDevices`: switches under "fortiswitch", then access points under "fortiap". Both lists are parameters.
- The request headers, `urllib3.disable_warnings`, `super().parse` and `_read_config_data` (parse, 234-244) are left out: they are configuration and foreign-library calls with no effect on the mapping.
- `super().verify_file` is framework code that checks the file exists and is readable. It is the `baseAccepts` parameter of `VerifyFile`.
- The `DOCUMENTATION` string and option definitions are configuration metadata.
- Ansible's `InventoryData` is framework code. Its `add_host`, `set_variable` and `add_group` are modelled only by their effect on hosts, variables and group members. Name validation beyond "a non-empty string" is not modelled. A host name that is not a non-empty string is refused with one `InvalidHostName` error.
- Text.Lower: `str.lower` and `str.isdigit` are modelled over ASCII only. Non-ASCII letters and digits are left as they are.
- Extractors.MatchOsVersion / Extractors.MatchOsRelease: Python's `re` engine is replaced by scans equivalent to the two fixed patterns.
- JSON numbers are modelled as integers only. A float would behave like an integer in every extractor and in the sanitiser: it has no `lower`, cannot be indexed or iterated, and is truthy exactly when non-zero. Only the float value itself, which a pass-through extractor hands on unchanged, has no counterpart in the model.
- Ansible's `InventoryData.set_variable` writes to a group, not a host, when the name is that of an existing group. A device named like a group would have its variables stored on the group. The model always writes to the host.
- Extractors.SafeGroupName: a non-empty list value is modelled as raising `AttributeError`. That is exact unless the list's first element is an all-digit string. In that case Python formats the list with `repr` and sanitises the text. No extractor returns a list except the pass-through ones reading a list-valued field.
- The mutation `host.update(...)` of the fetched record is modelled as a new record (`Annotate`). The fetched list is not used again after the loop, so nothing observes the difference.

Two behaviours of the code are worth stating plainly:

- A device without `ports` is never classified as `no_poe_switch`: `poe_switch` is not written. When the extractors before it succeed, iterating None raises `TypeError` and processing stops there (`MissingPortsStopsHost`).
- An unknown part number makes `extract_device_type` return None, and `poe_switch` is not written. When the extractors before it succeed, `device_type` is set to None, then `_generate_safe_group_name(None)` raises `TypeError` and processing stops there (`UnknownPartStopsHost`).

=== FILE: errors.dfy ===
/** The exceptions the plugin's code can raise while mapping a device record. */
module Errors {
  import opened JsonValue

  datatype Error =
    /** `AnsibleError(message)`, raised explicitly by the regular-expression extractors. */
    | AnsibleError(message: string)
    /** `d[key]` on a dict without that key. */
    | KeyError(key: Json)
    /** An operation applied to a value of the wrong type: `None[0]`,
        `re.search(pattern, None)`, iterating over an integer, ... */
    | TypeError
    /** `""[0]` or `[][0]`. */
    | IndexError
    /** A method missing on the value's type: `"abc".get(...)`, `[...].replace(...)`. */
    | AttributeError
    /** The inventory refuses a host name that is not a non-empty string. */
    | InvalidHostName
}

=== FILE: extractors.dfy ===
/** The per-field extractors of the inventory plugin and its group-name
    sanitiser: pure functions from one device record to one value. */
module Extractors {
  import opened Wrappers
  import opened JsonValue
  import opened Errors
  import opened Text

  /** The message of the `AnsibleError` both regular-expression extractors raise. */
  const OsVersionFailure: string := "Failed to extract_os_version"

  /** An extractor method: one device record to the value it extracts, or the
      exception it raises. */
  type Extractor = Record -> Result<Json, Error>

  // ---------------------------------------------------------------------------
  // Pass-through extractors

  /** `value = host.get(key)`, then `value.lower()`, falling back to `value`
      itself when it has no `lower` method (None, numbers, lists, dicts). */
  function LowerField(host: Record, key: string): (r: Json)
    ensures key !in host ==> r == JNull
    ensures key in host && host[key].JStr? ==> r == JStr(Lower(host[key].s))
    ensures key in host && !host[key].JStr? ==> r == host[key]
    ensures r.JStr? ==> Lower(r.s) == r.s
  {
    var v := Get(host, key);
    if v.JStr? then
      LowerIsFixedPoint(v.s);
      JStr(Lower(v.s))
    else v
  }

  function ExtractConnectingFrom(host: Record): Result<Json, Error> {
    Ok(LowerField(host, "connecting_from"))
  }

  function ExtractVendor(host: Record): Result<Json, Error> {
    Ok(LowerField(host, "device_vendor"))
  }

  function ExtractSerial(host: Record): Result<Json, Error> {
    Ok(LowerField(host, "serial"))
  }

  function ExtractConnectionStatus(host: Record): Result<Json, Error> {
    Ok(LowerField(host, "status"))
  }

  function ExtractDevicePlatform(host: Record): Result<Json, Error> {
    Ok(LowerField(host, "device_platform"))
  }

  // ---------------------------------------------------------------------------
  // os_version: `^[^-]*-v([^-]*)`

  /** The pattern `^[^-]*-v` matches `s`: the first `-` of `s` is followed by `v`. */
  ghost predicate VersionMatches(s: string) {
    exists i :: 0 <= i < |s| - 1 && s[i] == '-' && '-' !in s[..i] && s[i + 1] == 'v'
  }

  /** `c` is what `([^-]*)` captures after that `-v`: everything up to the next
      `-` or the end of `s`. */
  ghost predicate VersionCapture(s: string, c: string) {
    exists i ::
      0 <= i < |s| - 1 && s[i] == '-' && '-' !in s[..i] && s[i + 1] == 'v'
      && IsDashFreePrefix(s[i + 2..], c)
  }

  /** Group 1 of `re.search(r"^[^-]*-v([^-]*)", s)`, or None when there is no match. */
  function MatchOsVersion(s: string): Option<string> {
    match IndexOf(s, '-')
    case None => None
    case Some(i) =>
      if i + 1 < |s| && s[i + 1] == 'v' then
        var tail := s[i + 2..];
        match IndexOf(tail, '-')
        case None => Some(tail)
        case Some(j) => Some(tail[..j])
      else
        None
  }

  /** The scan finds a capture exactly when the pattern matches, and what it
      finds is the pattern's group 1. */
  lemma MatchOsVersionCorrect(s: string)
    ensures MatchOsVersion(s).Some? <==> VersionMatches(s)
    ensures MatchOsVersion(s).Some? ==> VersionCapture(s, MatchOsVersion(s).value)
  {
    match IndexOf(s, '-')
    case None =>
    case Some(i) =>
      if i + 1 < |s| && s[i + 1] == 'v' {
        var tail := s[i + 2..];
        match IndexOf(tail, '-')
        case None =>
          assert s[i + 2..|s|] == tail;
        case Some(j) =>
          assert s[i + 2..i + 2 + j] == tail[..j];
      }
  }

  /** `PART-vVERSION-REST` with no `-` in PART or VERSION yields VERSION,
      whatever REST holds (`FS1E48-v6.2.3-build123-FORTINET` gives `6.2.3`). */
  lemma OsVersionOfParts(part: string, version: string, rest: string)
    requires '-' !in part && '-' !in version
    ensures MatchOsVersion(part + "-v" + version + "-" + rest) == Some(version)
  {
    var tail := version + "-" + rest;
    var s := part + "-v" + version + "-" + rest;
    assert s == part + ("-v" + tail);
    assert s[|part|] == '-' && s[|part| + 1] == 'v';
    assert s[..|part|] == part;
    IndexOfIsFirst(s, '-', |part|);
    assert s[|part| + 2..] == tail;
    assert tail[|version|] == '-' && tail[..|version|] == version;
    IndexOfIsFirst(tail, '-', |version|);
  }

  /** `extract_os_version`: the lower-cased capture, `AnsibleError` when the
      pattern does not match, and `TypeError` when `os_version` is missing or
      not a string (`re.search` refuses None). */
  function ExtractOsVersion(host: Record): (r: Result<Json, Error>)
    ensures !Get(host, "os_version").JStr? ==> r == Err(TypeError)
    ensures Get(host, "os_version").JStr? ==>
      (r.Ok? <==> VersionMatches(Get(host, "os_version").s))
    ensures Get(host, "os_version").JStr? && r.Err? ==> r.error == AnsibleError(OsVersionFailure)
    ensures r.Ok? ==> exists c :: VersionCapture(Get(host, "os_version").s, c) && r.value == JStr(Lower(c))
    ensures r.Ok? ==> r.value.JStr? && '-' !in r.value.s
  {
    match Get(host, "os_version")
    case JStr(s) =>
      MatchOsVersionCorrect(s);
      (match MatchOsVersion(s)
       case Some(c) =>
         LowerKeeps(c, '-');
         Ok(JStr(Lower(c)))
       case None => Err(AnsibleError(OsVersionFailure)))
    case _ => Err(TypeError)
  }

  // ---------------------------------------------------------------------------
  // os_version: `-.*-(.*)`

  /** An unanchored search for `-.*-` finds a match: two `-` with no newline
      between them (`.` does not match a newline). */
  ghost predicate ReleaseMatches(s: string) {
    exists i, j :: 0 <= i < j < |s| && s[i] == '-' && s[j] == '-' && '\n' !in s[i..j]
  }

  /** On one line: group 1 of the search is everything after the last `-`, once
      there are at least two. */
  function LineRelease(line: string): (r: Option<string>)
    requires '\n' !in line
    ensures r.Some? <==> ReleaseMatches(line)
    ensures r.Some? ==> exists j :: 0 <= j < |line| && line[j] == '-' && r.value == line[j + 1..]
    ensures r.Some? ==> '-' !in r.value && '\n' !in r.value
  {
    match IndexOf(line, '-')
    case None => None
    case Some(i) =>
      match LastIndexOf(line, '-')
      case Some(j) =>
        if i < j then
          assert '\n' !in line[i..j] by {
            forall k | i <= k < j ensures line[k] != '\n' { assert line[k] in line; }
          }
          Some(line[j + 1..])
        else
          assert !ReleaseMatches(line) by {
            forall a, b | 0 <= a < b < |line| && line[a] == '-' && line[b] == '-'
              ensures false
            {
            }
          }
          None
  }

  /** A match either lies on the first line or in what follows its newline. */
  lemma ReleaseMatchesSplit(s: string, n: nat)
    requires n < |s| && s[n] == '\n' && '\n' !in s[..n]
    ensures ReleaseMatches(s) <==> ReleaseMatches(s[..n]) || ReleaseMatches(s[n + 1..])
  {
    if ReleaseMatches(s) {
      ReleaseMatchesOnOneSide(s, n);
    }
    if ReleaseMatches(s[..n]) {
      ReleaseMatchesFromLine(s, n);
    }
    if ReleaseMatches(s[n + 1..]) {
      ReleaseMatchesFromRest(s, n);
    }
  }

  /** A match cannot straddle a newline. */
  lemma ReleaseMatchesOnOneSide(s: string, n: nat)
    requires n < |s| && s[n] == '\n' && ReleaseMatches(s)
    ensures ReleaseMatches(s[..n]) || ReleaseMatches(s[n + 1..])
  {
    var line, rest := s[..n], s[n + 1..];
    var i, j :| 0 <= i < j < |s| && s[i] == '-' && s[j] == '-' && '\n' !in s[i..j];
    if j < n {
      assert line[i..j] == s[i..j];
      assert line[i] == '-' && line[j] == '-';
    } else if n < i {
      assert rest[i - n - 1..j - n - 1] == s[i..j];
      assert rest[i - n - 1] == '-' && rest[j - n - 1] == '-';
    }
  }

  /** A match on the first line is a match of the whole text. */
  lemma ReleaseMatchesFromLine(s: string, n: nat)
    requires n < |s| && ReleaseMatches(s[..n])
    ensures ReleaseMatches(s)
  {
    var line := s[..n];
    var i, j :| 0 <= i < j < |line| && line[i] == '-' && line[j] == '-' && '\n' !in line[i..j];
    assert s[i] == '-' && s[j] == '-';
    assert forall k :: 0 <= k < j - i ==> s[i..j][k] == line[i..j][k];
    assert s[i..j] == line[i..j];
  }

  /** A match after the first newline is a match of the whole text. */
  lemma ReleaseMatchesFromRest(s: string, n: nat)
    requires n < |s| && ReleaseMatches(s[n + 1..])
    ensures ReleaseMatches(s)
  {
    var rest := s[n + 1..];
    var i, j :| 0 <= i < j < |rest| && rest[i] == '-' && rest[j] == '-' && '\n' !in rest[i..j];
    assert s[i + n + 1..j + n + 1] == rest[i..j];
    assert s[i + n + 1] == '-' && s[j + n + 1] == '-';
  }

  /** Group 1 of `re.search(r"-.*-(.*)", s)`, or None when there is no match.
      The search takes the leftmost line holding two `-` and captures the rest
      of that line after its last `-`. */
  function MatchOsRelease(s: string): (r: Option<string>)
    ensures r.Some? <==> ReleaseMatches(s)
    ensures r.Some? ==> '-' !in r.value && '\n' !in r.value
    ensures '\n' !in s && r.Some? ==>
      exists j :: 0 <= j < |s| && s[j] == '-' && r.value == s[j + 1..]
    decreases |s|
  {
    match IndexOf(s, '\n')
    case None => LineRelease(s)
    case Some(n) =>
      ReleaseMatchesSplit(s, n);
      match LineRelease(s[..n])
      case Some(c) => Some(c)
      case None => MatchOsRelease(s[n + 1..])
  }

  /** The search takes the leftmost line that matches: when the first line
      holds two `-` the capture comes from it, and otherwise the search goes
      on after the first newline. */
  lemma MatchOsReleaseLeftmost(s: string, n: nat)
    requires n < |s| && s[n] == '\n' && '\n' !in s[..n]
    ensures ReleaseMatches(s[..n]) ==> MatchOsRelease(s) == LineRelease(s[..n])
    ensures !ReleaseMatches(s[..n]) ==> MatchOsRelease(s) == MatchOsRelease(s[n + 1..])
  {
    assert IndexOf(s, '\n') == Some(n);
  }

  /** `extract_os_release`: the lower-cased capture; `AnsibleError` (with the
      same message as `extract_os_version`) when the pattern does not match;
      `TypeError` when `os_version` is missing or not a string. */
  function ExtractOsRelease(host: Record): (r: Result<Json, Error>)
    ensures !Get(host, "os_version").JStr? ==> r == Err(TypeError)
    ensures Get(host, "os_version").JStr? ==>
      (r.Ok? <==> ReleaseMatches(Get(host, "os_version").s))
    ensures Get(host, "os_version").JStr? && r.Err? ==> r.error == AnsibleError(OsVersionFailure)
    ensures r.Ok? ==> r.value.JStr? && '-' !in r.value.s
  {
    match Get(host, "os_version")
    case JStr(s) =>
      (match MatchOsRelease(s)
       case Some(c) =>
         LowerKeeps(c, '-');
         Ok(JStr(Lower(c)))
       case None => Err(AnsibleError(OsVersionFailure)))
    case _ => Err(TypeError)
  }

  /** On an `os_version` without newlines the release is the lower-cased text
      after the last `-`, and it exists exactly when there are two `-`. */
  lemma OsReleaseSingleLine(host: Record, s: string)
    requires Get(host, "os_version") == JStr(s) && '\n' !in s
    ensures ExtractOsRelease(host).Ok? <==>
      exists i, j :: 0 <= i < j < |s| && s[i] == '-' && s[j] == '-'
    ensures ExtractOsRelease(host).Ok? ==>
      exists j :: 0 <= j < |s| && s[j] == '-' && '-' !in s[j + 1..]
        && ExtractOsRelease(host).value == JStr(Lower(s[j + 1..]))
  {
    ReleaseMatchesOneLine(s);
  }

  /** Without newlines, a match is just two `-`. */
  lemma ReleaseMatchesOneLine(s: string)
    requires '\n' !in s
    ensures ReleaseMatches(s) <==> exists i, j :: 0 <= i < j < |s| && s[i] == '-' && s[j] == '-'
  {
    if exists i, j :: 0 <= i < j < |s| && s[i] == '-' && s[j] == '-' {
      var i, j :| 0 <= i < j < |s| && s[i] == '-' && s[j] == '-';
      assert '\n' !in s[i..j] by {
        forall k | i <= k < j ensures s[k] != '\n' { assert s[k] in s; }
      }
    }
  }

  // ---------------------------------------------------------------------------
  // Device type

  /** `part_model_mapping`: part-number prefix to model name. */
  const PartModelMapping: map<string, string> := map[
    "S548DF" := "fs-548d-fpoe",
    "FS3E32" := "fs-3032e",
    "FS1E48" := "fs-1048e",
    "S108EF" := "fs-108e-fpoe",
    "FP23JF" := "fap-23jf"
  ]

  /** `s` names part `p`: `p` is all of `s` or is followed by a `-`. */
  predicate NamesPart(s: string, p: string) {
    p <= s && (|p| == |s| || s[|p|] == '-')
  }

  /** `re.search(r"^[^-]*", s).group(0)`: everything before the first `-`. */
  function PartNumber(s: string): (r: string)
    ensures IsDashFreePrefix(s, r)
  {
    match IndexOf(s, '-')
    case None => s
    case Some(i) => s[..i]
  }

  /** The table keys hold no `-`, so a key names the part of `s` exactly when
      it is the text before the first `-`. */
  lemma NamesPartIsPartNumber(s: string, p: string)
    requires p in PartModelMapping
    ensures NamesPart(s, p) <==> p == PartNumber(s)
  {
    assert '-' !in p;
  }

  /** `extract_device_type`: `host["os_version"]` (a `KeyError` when absent,
      a `TypeError` when not a string), then a case-sensitive lookup of the part
      number, None when the table does not know it. */
  function ExtractDeviceType(host: Record): (r: Result<Json, Error>)
    ensures "os_version" !in host ==> r == Err(KeyError(JStr("os_version")))
    ensures "os_version" in host && !host["os_version"].JStr? ==> r == Err(TypeError)
    ensures "os_version" in host && host["os_version"].JStr? ==> r.Ok?
    ensures r.Ok? ==> r.value == JNull || r.value.JStr?
    ensures r.Ok? && r.value.JStr? ==> r.value.s in PartModelMapping.Values
  {
    if "os_version" !in host then Err(KeyError(JStr("os_version")))
    else match host["os_version"]
      case JStr(s) =>
        var part := PartNumber(s);
        Ok(if part in PartModelMapping then JStr(PartModelMapping[part]) else JNull)
      case _ => Err(TypeError)
  }

  /** No two part numbers share a model name. */
  lemma ModelNamesDistinct(p: string, q: string)
    requires p in PartModelMapping && q in PartModelMapping
    ensures PartModelMapping[p] == PartModelMapping[q] ==> p == q
  {
  }

  /** The device type is the model of the part `os_version` names, and None
      exactly when it names none of the table's parts. */
  lemma {:induction false} DeviceTypeOfPart(host: Record, s: string)
    requires "os_version" in host && host["os_version"] == JStr(s)
    ensures forall p :: p in PartModelMapping ==>
      (NamesPart(s, p) <==> ExtractDeviceType(host) == Ok(JStr(PartModelMapping[p])))
    ensures ExtractDeviceType(host) == Ok(JNull) <==>
      forall p :: p in PartModelMapping ==> !NamesPart(s, p)
  {
    forall p | p in PartModelMapping
      ensures NamesPart(s, p) <==> ExtractDeviceType(host) == Ok(JStr(PartModelMapping[p]))
    {
      NamesPartIsPartNumber(s, p);
      if PartNumber(s) in PartModelMapping {
        ModelNamesDistinct(p, PartNumber(s));
      }
    }
    if PartNumber(s) in PartModelMapping {
      NamesPartIsPartNumber(s, PartNumber(s));
    }
  }

  /** An `os_version` starting with a known part number and a `-` gives that
      part's model (`FS1E48-v6.2.3-...` gives `fs-1048e`). */
  lemma DeviceTypeOfParts(host: Record, part: string, rest: string)
    requires part in PartModelMapping
    requires "os_version" in host && host["os_version"] == JStr(part + "-" + rest)
    ensures ExtractDeviceType(host) == Ok(JStr(PartModelMapping[part]))
  {
    var s := part + "-" + rest;
    assert s[..|part|] == part;
    DeviceTypeOfPart(host, s);
  }

  // ---------------------------------------------------------------------------
  // PoE capability

  const PoeSwitch: string := "poe_switch"
  const NoPoeSwitch: string := "no_poe_switch"

  /** The comprehension `[i.get("poe_capable") for i in ports if i.get("poe_capable")]`
      is non-empty. Every element is asked for `get`, so one that is not a dict
      raises `AttributeError` wherever it stands. */
  function AnyPoePort(ports: seq<Json>): (r: Result<bool, Error>)
    ensures r.Ok? <==> forall k :: 0 <= k < |ports| ==> ports[k].JObj?
    ensures r.Err? ==> r.error == AttributeError
    ensures r.Ok? ==> (r.value <==>
      exists k :: 0 <= k < |ports| && ports[k].JObj? && Truthy(Get(ports[k].fields, "poe_capable")))
  {
    if ports == [] then Ok(false)
    else if !ports[0].JObj? then Err(AttributeError)
    else match AnyPoePort(ports[1..])
      case Err(e) => Err(e)
      case Ok(b) =>
        assert forall k :: 1 <= k < |ports| ==> ports[k] == ports[1..][k - 1];
        Ok(Truthy(Get(ports[0].fields, "poe_capable")) || b)
  }

  /** Iterating over `ports` in that comprehension: a list is walked element by
      element; a string or dict is walked too, so only an empty one gets through;
      None (a missing key), a boolean or a number is not iterable. */
  function PortsHavePoe(ports: Json): (r: Result<bool, Error>)
    ensures ports.JList? ==> r == AnyPoePort(ports.items)
    ensures ports.JStr? || ports.JObj? ==> (r.Ok? <==> !Truthy(ports))
    ensures ports.JStr? || ports.JObj? ==> (r.Err? ==> r.error == AttributeError)
    ensures ports.JNull? || ports.JBool? || ports.JInt? ==> r == Err(TypeError)
    ensures r.Ok? && !ports.JList? ==> !r.value
  {
    match ports
    case JList(items) => AnyPoePort(items)
    case JStr(s) => if s == "" then Ok(false) else Err(AttributeError)
    case JObj(m) => if m == map[] then Ok(false) else Err(AttributeError)
    case _ => Err(TypeError)
  }

  /** `extract_poe_capable`: it succeeds exactly when `ports` is a list of dicts
      or an empty string or dict, and then gives `"poe_switch"` exactly when some
      port record has a truthy `poe_capable`, `"no_poe_switch"` otherwise. A
      port that is not a dict has no `get` (`AttributeError`); a value that
      cannot be iterated raises `TypeError`. */
  function ExtractPoeCapable(host: Record): (r: Result<Json, Error>)
    ensures var ports := Get(host, "ports");
      r.Ok? <==>
        || (ports.JList? && forall k :: 0 <= k < |ports.items| ==> ports.items[k].JObj?)
        || ports == JStr("")
        || ports == JObj(map[])
    ensures var ports := Get(host, "ports");
      r.Err? ==> r.error == (if ports.JList? || ports.JStr? || ports.JObj? then AttributeError else TypeError)
    ensures r.Ok? ==> r.value == JStr(PoeSwitch) || r.value == JStr(NoPoeSwitch)
    ensures r == Ok(JStr(PoeSwitch)) <==>
      var ports := Get(host, "ports");
      ports.JList?
      && (forall k :: 0 <= k < |ports.items| ==> ports.items[k].JObj?)
      && exists k :: 0 <= k < |ports.items| && ports.items[k].JObj?
           && Truthy(Get(ports.items[k].fields, "poe_capable"))
    ensures Get(host, "ports") == JList([]) ==> r == Ok(JStr(NoPoeSwitch))
    ensures "ports" !in host ==> r == Err(TypeError)
  {
    var poe :- PortsHavePoe(Get(host, "ports"));
    Ok(JStr(if poe then PoeSwitch else NoPoeSwitch))
  }

  // ---------------------------------------------------------------------------
  // Group-name sanitiser

  /** The characters `_generate_safe_group_name` replaces by `_`. */
  predicate IsInvalidGroupChar(c: char) {
    c == '-' || c == '.' || c == ' '
  }

  /** A group name the sanitiser leaves alone: non-empty, no leading digit and
      none of `-`, `.` or space. */
  predicate IsSafeGroupName(g: string) {
    |g| > 0 && !IsDigit(g[0]) && forall i :: 0 <= i < |g| ==> !IsInvalidGroupChar(g[i])
  }

  /** `_generate_safe_group_name` on a string: `group_name[0]` (an `IndexError`
      on ""), a `_` in front of a leading digit, then three `replace` passes. */
  function SafeGroupNameOfString(s: string): (r: Result<string, Error>)
    ensures r.Err? <==> s == []
    ensures r.Err? ==> r.error == IndexError
  {
    if s == [] then Err(IndexError)
    else
      var g := if IsDigit(s[0]) then "_" + s else s;
      Ok(Replace(Replace(Replace(g, '-', '_'), '.', '_'), ' ', '_'))
  }

  /** The sanitised name, character by character: a `_` in front exactly when
      the name starts with a digit, then each of `-`, `.` and space replaced
      by `_` and every other character kept in place. */
  lemma SanitisedPointwise(s: string)
    requires s != []
    ensures var r := SafeGroupNameOfString(s).value;
      var off := if IsDigit(s[0]) then 1 else 0;
      && |r| == |s| + off
      && (off == 1 ==> r[0] == '_')
      && forall i :: 0 <= i < |s| ==> r[i + off] == (if IsInvalidGroupChar(s[i]) then '_' else s[i])
  {
    var g := if IsDigit(s[0]) then "_" + s else s;
    var off := if IsDigit(s[0]) then 1 else 0;
    var g1 := Replace(g, '-', '_');
    var g2 := Replace(g1, '.', '_');
    ReplacePointwise(g, '-', '_');
    ReplacePointwise(g1, '.', '_');
    ReplacePointwise(g2, ' ', '_');
    assert forall i :: 0 <= i < |s| ==> g[i + off] == s[i];
  }

  /** The sanitiser's result is always a safe name. */
  lemma SanitisedIsSafe(s: string)
    requires s != []
    ensures IsSafeGroupName(SafeGroupNameOfString(s).value)
  {
    SanitisedPointwise(s);
    var r := SafeGroupNameOfString(s).value;
    var off := if IsDigit(s[0]) then 1 else 0;
    forall i | 0 <= i < |r| ensures !IsInvalidGroupChar(r[i]) {
      if i >= off {
        var j := i - off;
        assert r[j + off] == (if IsInvalidGroupChar(s[j]) then '_' else s[j]);
      }
    }
  }

  /** A safe name is returned unchanged. */
  lemma SafeNameUnchanged(g: string)
    requires IsSafeGroupName(g)
    ensures SafeGroupNameOfString(g) == Ok(g)
  {
    SanitisedPointwise(g);
    var r := SafeGroupNameOfString(g).value;
    assert !IsDigit(g[0]);
    assert |r| == |g|;
    forall i | 0 <= i < |g| ensures r[i] == g[i] {
      assert r[i + 0] == g[i];
    }
    assert r == g;
  }

  /** Sanitising is idempotent. */
  lemma SanitiseIdempotent(s: string)
    requires s != []
    ensures SafeGroupNameOfString(SafeGroupNameOfString(s).value) == SafeGroupNameOfString(s)
  {
    SanitisedIsSafe(s);
    SafeNameUnchanged(SafeGroupNameOfString(s).value);
  }

  /** `_generate_safe_group_name` on whatever an extractor returned. Only a
      non-empty string gets through: `None[0]`, `True[0]`, `5[0]` raise
      `TypeError`, `[][0]` raises `IndexError`, `{...}[0]` raises `KeyError(0)`
      (JSON keys are strings), and a non-empty list has no `replace`. */
  function SafeGroupName(v: Json): (r: Result<string, Error>)
    ensures r.Ok? <==> v.JStr? && v.s != []
    ensures r.Ok? ==> IsSafeGroupName(r.value)
    ensures v.JNull? ==> r == Err(TypeError)
    ensures v == JStr("") ==> r == Err(IndexError)
    ensures v.JStr? && v.s != [] ==> r == SafeGroupNameOfString(v.s)
    ensures v.JBool? || v.JInt? ==> r == Err(TypeError)
    ensures v == JList([]) ==> r == Err(IndexError)
    ensures v.JList? && v.items != [] ==> r == Err(AttributeError)
    ensures v.JObj? ==> r == Err(KeyError(JInt(0)))
  {
    match v
    case JStr(s) =>
      if s == [] then Err(IndexError)
      else
        SanitisedIsSafe(s);
        SafeGroupNameOfString(s)
    case JNull => Err(TypeError)
    case JBool(_) => Err(TypeError)
    case JInt(_) => Err(TypeError)
    case JList(xs) => if xs == [] then Err(IndexError) else Err(AttributeError)
    case JObj(_) => Err(KeyError(JInt(0)))
  }
}

=== FILE: inventory_state.dfy ===
/** The inventory the plugin fills: hosts, host variables and groups, changed
    only through the four calls the plugin makes on it. */
module InventoryState {
  import opened JsonValue

  /** Registered hosts, the variable `key` of host `h` at `vars[(h, key)]`, and
      the members of each group. */
  datatype Inventory = Inventory(
    hosts: set<string>,
    vars: map<(string, string), Json>,
    groups: map<string, set<string>>)

  const Empty: Inventory := Inventory({}, map[], map[])

  /** One call on the inventory. */
  datatype Op =
    /** `inventory.add_host(host=h)` */
    | AddHost(host: string)
    /** `inventory.set_variable(h, key, value)` */
    | SetVar(host: string, key: string, value: Json)
    /** `inventory.add_group(group=g)` */
    | AddGroup(group: string)
    /** `inventory.add_host(group=g, host=h)` */
    | AddToGroup(group: string, member: string)

  function Members(groups: map<string, set<string>>, g: string): set<string> {
    if g in groups then groups[g] else {}
  }

  predicate InGroup(inv: Inventory, g: string, h: string) {
    h in Members(inv.groups, g)
  }

  /** The effect of one call. Adding an existing host or group changes nothing;
      setting a variable overwrites it. */
  function Step(inv: Inventory, op: Op): Inventory {
    match op
    case AddHost(h) => inv.(hosts := inv.hosts + {h})
    case SetVar(h, k, v) => inv.(vars := inv.vars[(h, k) := v])
    case AddGroup(g) => if g in inv.groups then inv else inv.(groups := inv.groups[g := {}])
    case AddToGroup(g, h) =>
      inv.(hosts := inv.hosts + {h}, groups := inv.groups[g := Members(inv.groups, g) + {h}])
  }

  /** The calls in order. */
  function Apply(inv: Inventory, ops: seq<Op>): (r: Inventory)
    ensures inv.hosts <= r.hosts
    ensures inv.groups.Keys <= r.groups.Keys
    decreases |ops|
  {
    if ops == [] then inv else Apply(Step(inv, ops[0]), ops[1..])
  }

  lemma {:induction false} ApplyConcat(inv: Inventory, a: seq<Op>, b: seq<Op>)
    ensures Apply(inv, a + b) == Apply(Apply(inv, a), b)
    decreases |a|
  {
    if a != [] {
      assert (a + b)[1..] == a[1..] + b;
      ApplyConcat(Step(inv, a[0]), a[1..], b);
    } else {
      assert a + b == b;
    }
  }

  // ---------------------------------------------------------------------------
  // What a sequence of calls leaves behind

  /** A host is registered after the calls exactly when it was before or some
      call registered it. */
  lemma {:induction false} ApplyHosts(inv: Inventory, ops: seq<Op>, h: string)
    ensures h in Apply(inv, ops).hosts <==>
      h in inv.hosts || AddHost(h) in ops || exists g :: AddToGroup(g, h) in ops
    decreases |ops|
  {
    if ops != [] {
      ApplyHosts(Step(inv, ops[0]), ops[1..], h);
      assert ops == [ops[0]] + ops[1..];
      if exists g :: AddToGroup(g, h) in ops[1..] {
        var g :| AddToGroup(g, h) in ops[1..];
        assert AddToGroup(g, h) in ops;
      }
    }
  }

  /** A host belongs to a group after the calls exactly when it did before or
      some call added it to that group. */
  lemma {:induction false} ApplyMembership(inv: Inventory, ops: seq<Op>, g: string, h: string)
    ensures InGroup(Apply(inv, ops), g, h) <==> InGroup(inv, g, h) || AddToGroup(g, h) in ops
    decreases |ops|
  {
    if ops != [] {
      ApplyMembership(Step(inv, ops[0]), ops[1..], g, h);
      assert ops == [ops[0]] + ops[1..];
    }
  }

  /** When every call that sets variable `key` of `h` sets it to `v`, and one
      such call happens (or `v` was already there), the variable ends as `v`. */
  lemma {:induction false} ApplyAgreeingWrite(inv: Inventory, ops: seq<Op>, h: string, key: string, v: Json)
    requires SetVar(h, key, v) in ops || ((h, key) in inv.vars && inv.vars[(h, key)] == v)
    requires forall op :: op in ops && op.SetVar? && op.host == h && op.key == key ==> op.value == v
    ensures (h, key) in Apply(inv, ops).vars && Apply(inv, ops).vars[(h, key)] == v
    decreases |ops|
  {
    if ops != [] {
      assert ops == [ops[0]] + ops[1..];
      ApplyAgreeingWrite(Step(inv, ops[0]), ops[1..], h, key, v);
    }
  }

  /** A variable that no call sets keeps its value. */
  lemma {:induction false} ApplyUntouchedVar(inv: Inventory, ops: seq<Op>, h: string, key: string)
    requires forall op :: op in ops && op.SetVar? ==> (op.host, op.key) != (h, key)
    ensures ((h, key) in Apply(inv, ops).vars <==> (h, key) in inv.vars)
    ensures (h, key) in inv.vars ==> Apply(inv, ops).vars[(h, key)] == inv.vars[(h, key)]
    decreases |ops|
  {
    if ops != [] {
      assert ops == [ops[0]] + ops[1..];
      ApplyUntouchedVar(Step(inv, ops[0]), ops[1..], h, key);
    }
  }

  // ---------------------------------------------------------------------------
  // Idempotence

  /** Group maps with the same keys and the same members are equal. */
  lemma GroupsEqual(x: map<string, set<string>>, y: map<string, set<string>>)
    requires x.Keys == y.Keys
    requires forall g :: Members(x, g) == Members(y, g)
    ensures x == y
  {
    forall g | g in x ensures x[g] == y[g] {
      assert Members(x, g) == Members(y, g);
    }
  }

  function MergeGroups(x: map<string, set<string>>, y: map<string, set<string>>): (m: map<string, set<string>>)
    ensures m.Keys == x.Keys + y.Keys
  {
    map g | g in x.Keys + y.Keys :: Members(x, g) + Members(y, g)
  }

  lemma MembersOfMerge(x: map<string, set<string>>, y: map<string, set<string>>, g: string)
    ensures Members(MergeGroups(x, y), g) == Members(x, g) + Members(y, g)
  {
  }

  /** Merging: later variables win, hosts and group members accumulate. */
  function Combine(a: Inventory, b: Inventory): Inventory {
    Inventory(a.hosts + b.hosts, a.vars + b.vars, MergeGroups(a.groups, b.groups))
  }

  lemma MergeGroupsAssociative(x: map<string, set<string>>, y: map<string, set<string>>, z: map<string, set<string>>)
    ensures MergeGroups(MergeGroups(x, y), z) == MergeGroups(x, MergeGroups(y, z))
  {
    forall g ensures Members(MergeGroups(MergeGroups(x, y), z), g) == Members(MergeGroups(x, MergeGroups(y, z)), g) {
      MembersOfMerge(x, y, g);
      MembersOfMerge(MergeGroups(x, y), z, g);
      MembersOfMerge(y, z, g);
      MembersOfMerge(x, MergeGroups(y, z), g);
    }
    GroupsEqual(MergeGroups(MergeGroups(x, y), z), MergeGroups(x, MergeGroups(y, z)));
  }

  lemma MergeGroupsAbsorbs(x: map<string, set<string>>, y: map<string, set<string>>)
    ensures MergeGroups(MergeGroups(x, y), y) == MergeGroups(x, y)
  {
    forall g ensures Members(MergeGroups(MergeGroups(x, y), y), g) == Members(MergeGroups(x, y), g) {
      MembersOfMerge(x, y, g);
      MembersOfMerge(MergeGroups(x, y), y, g);
    }
    GroupsEqual(MergeGroups(MergeGroups(x, y), y), MergeGroups(x, y));
  }

  lemma VarsAssociative(x: map<(string, string), Json>, y: map<(string, string), Json>, z: map<(string, string), Json>)
    ensures (x + y) + z == x + (y + z)
  {
  }

  lemma CombineAssociative(a: Inventory, b: Inventory, c: Inventory)
    ensures Combine(Combine(a, b), c) == Combine(a, Combine(b, c))
  {
    VarsAssociative(a.vars, b.vars, c.vars);
    MergeGroupsAssociative(a.groups, b.groups, c.groups);
  }

  lemma CombineAbsorbs(a: Inventory, b: Inventory)
    ensures Combine(Combine(a, b), b) == Combine(a, b)
  {
    assert (a.vars + b.vars) + b.vars == a.vars + b.vars;
    MergeGroupsAbsorbs(a.groups, b.groups);
  }

  lemma StepVarsIsCombine(inv: Inventory, op: Op)
    ensures Step(inv, op).vars == inv.vars + Step(Empty, op).vars
  {
  }

  lemma StepGroupsIsCombine(inv: Inventory, op: Op)
    ensures Step(inv, op).groups == MergeGroups(inv.groups, Step(Empty, op).groups)
  {
    var l, r := Step(inv, op).groups, MergeGroups(inv.groups, Step(Empty, op).groups);
    forall g ensures Members(l, g) == Members(r, g) {
      MembersOfMerge(inv.groups, Step(Empty, op).groups, g);
    }
    GroupsEqual(l, r);
  }

  lemma StepIsCombine(inv: Inventory, op: Op)
    ensures Step(inv, op) == Combine(inv, Step(Empty, op))
  {
    StepVarsIsCombine(inv, op);
    StepGroupsIsCombine(inv, op);
  }

  /** Applying calls merges their effect on an empty inventory into the state. */
  lemma {:induction false} ApplyIsCombine(inv: Inventory, ops: seq<Op>)
    ensures Apply(inv, ops) == Combine(inv, Apply(Empty, ops))
    decreases |ops|
  {
    if ops == [] {
      var r := Combine(inv, Empty);
      assert r.vars == inv.vars;
      forall g ensures Members(r.groups, g) == Members(inv.groups, g) {
        MembersOfMerge(inv.groups, Empty.groups, g);
      }
      GroupsEqual(r.groups, inv.groups);
    } else {
      var e := Step(Empty, ops[0]);
      ApplyIsCombine(Step(inv, ops[0]), ops[1..]);
      ApplyIsCombine(e, ops[1..]);
      StepIsCombine(inv, ops[0]);
      CombineAssociative(inv, e, Apply(Empty, ops[1..]));
    }
  }

  /** Making the same calls a second time changes nothing. */
  lemma ApplyTwice(inv: Inventory, ops: seq<Op>)
    ensures Apply(Apply(inv, ops), ops) == Apply(inv, ops)
  {
    ApplyIsCombine(inv, ops);
    ApplyIsCombine(Apply(inv, ops), ops);
    CombineAbsorbs(inv, Apply(Empty, ops));
  }
}

=== FILE: json.dfy ===
/** JSON values as the controller's REST API returns them, with the Python
    operations the plugin applies to them. */
module JsonValue {

  /** A decoded JSON value. Objects are Python dicts keyed by strings.
      JSON numbers are modelled as integers only. */
  datatype Json =
    | JNull
    | JBool(b: bool)
    | JInt(i: int)
    | JStr(s: string)
    | JList(items: seq<Json>)
    | JObj(fields: map<string, Json>)

  /** A device record: one element of the `results` array. */
  type Record = map<string, Json>

  /** Python's `d.get(key)`: the value, or None when the key is absent. */
  function Get(d: Record, key: string): Json {
    if key in d then d[key] else JNull
  }

  /** Python truthiness of a JSON value (`if x:`): None, False, 0 and empty
      containers are false, everything else is true. */
  predicate Truthy(v: Json) {
    match v
    case JNull => false
    case JBool(b) => b
    case JInt(i) => i != 0
    case JStr(s) => |s| > 0
    case JList(xs) => |xs| > 0
    case JObj(m) => |m| > 0
  }
}

=== FILE: plugin.dfy ===
/** The inventory plugin: which extractors run, in which order, and what one
    device record turns into on the inventory. */
module InventoryPlugin {
  import opened Wrappers
  import opened JsonValue
  import opened Errors
  import opened Text
  import opened Extractors
  import opened InventoryState

  /** What processing makes of its input: the inventory calls, in order, and
      the exception that stopped it, if any. Calls made before the exception
      stay made. */
  datatype Emitted = Emitted(ops: seq<Op>, failure: Option<Error>)

  /** An inventory after processing, with the exception that stopped it. */
  datatype Run = Run(inventory: Inventory, failure: Option<Error>)

  /** `variable_extractors`, in dict order: variable name and extractor. */
  const VariableExtractors: seq<(string, Extractor)> := [
    ("ansible_host", ExtractConnectingFrom),
    ("device_serial", ExtractSerial),
    ("device_vendor", ExtractVendor),
    ("ansible_distribution_release", ExtractOsRelease)
  ]

  /** `group_extractors`, in dict order: each value is also a group name. */
  const GroupExtractors: seq<(string, Extractor)> := [
    ("device_status", ExtractConnectionStatus),
    ("ansible_distribution_version", ExtractOsVersion),
    ("device_platform", ExtractDevicePlatform),
    ("device_type", ExtractDeviceType),
    ("poe_switch", ExtractPoeCapable)
  ]

  /** The group a group extractor puts the host in: its value, sanitised. */
  function GroupOf(extract: Extractor, host: Record): Result<string, Error> {
    var v :- extract(host);
    SafeGroupName(v)
  }

  /** `_fill_host_variables`: one `set_variable` per extractor, in order,
      stopping at the first extractor that raises. */
  function FillHostVariables(h: string, host: Record, rules: seq<(string, Extractor)>): (e: Emitted)
    decreases |rules|
  {
    if rules == [] then Emitted([], None)
    else match rules[0].1(host)
      case Err(err) => Emitted([], Some(err))
      case Ok(v) =>
        var rest := FillHostVariables(h, host, rules[1..]);
        Emitted([SetVar(h, rules[0].0, v)] + rest.ops, rest.failure)
  }

  /** `_fill_host_variables` writes the extractors' values in order, up to the
      first extractor that raises, whose exception it passes on. */
  lemma {:induction false} VariableCalls(h: string, host: Record, rules: seq<(string, Extractor)>)
    ensures var e := FillHostVariables(h, host, rules);
      && |e.ops| <= |rules|
      && (forall i :: 0 <= i < |e.ops| ==>
            rules[i].1(host).Ok? && e.ops[i] == SetVar(h, rules[i].0, rules[i].1(host).value))
      && (e.failure.None? <==> |e.ops| == |rules|)
      && (e.failure.Some? ==> rules[|e.ops|].1(host) == Err(e.failure.value))
    decreases |rules|
  {
    if rules != [] && rules[0].1(host).Ok? {
      VariableCalls(h, host, rules[1..]);
      var e := FillHostVariables(h, host, rules);
      var rest := FillHostVariables(h, host, rules[1..]);
      assert e.ops == [SetVar(h, rules[0].0, rules[0].1(host).value)] + rest.ops;
      assert forall i :: 1 <= i < |rules| ==> rules[i] == rules[1..][i - 1];
    }
  }

  /** `op` is one of the calls group extractor `rule` leads to on host `h`. */
  predicate IsGroupCall(h: string, host: Record, rule: (string, Extractor), op: Op) {
    && rule.1(host).Ok?
    && (|| op == SetVar(h, rule.0, rule.1(host).value)
        || (&& GroupOf(rule.1, host).Ok?
            && (op == AddGroup(GroupOf(rule.1, host).value) || op == AddToGroup(GroupOf(rule.1, host).value, h))))
  }

  /** `_fill_host_group_variables`: per extractor, in order, `set_variable`,
      then the sanitised group and the host's membership in it. An extractor
      that raises stops before its `set_variable`; a sanitiser that raises stops
      just after it. */
  function FillHostGroupVariables(h: string, host: Record, rules: seq<(string, Extractor)>): (e: Emitted)
    decreases |rules|
  {
    if rules == [] then Emitted([], None)
    else match rules[0].1(host)
      case Err(err) => Emitted([], Some(err))
      case Ok(v) =>
        var write := SetVar(h, rules[0].0, v);
        match SafeGroupName(v)
        case Err(err) => Emitted([write], Some(err))
        case Ok(g) =>
          var rest := FillHostGroupVariables(h, host, rules[1..]);
          Emitted([write, AddGroup(g), AddToGroup(g, h)] + rest.ops, rest.failure)
  }

  /** `_fill_host_group_variables` completes exactly when every extractor and
      every sanitised group name succeeds. */
  lemma {:induction false} GroupCallsSucceed(h: string, host: Record, rules: seq<(string, Extractor)>)
    ensures FillHostGroupVariables(h, host, rules).failure.None? <==>
      forall k :: 0 <= k < |rules| ==> GroupOf(rules[k].1, host).Ok?
    decreases |rules|
  {
    if rules != [] && GroupOf(rules[0].1, host).Ok? {
      GroupCallsSucceed(h, host, rules[1..]);
      assert forall k :: 1 <= k < |rules| ==> rules[k] == rules[1..][k - 1];
    }
  }

  /** Every call made belongs to one of the extractors. */
  lemma {:induction false} GroupCallsFromRules(h: string, host: Record, rules: seq<(string, Extractor)>)
    ensures forall op :: op in FillHostGroupVariables(h, host, rules).ops ==>
      exists k :: 0 <= k < |rules| && IsGroupCall(h, host, rules[k], op)
    decreases |rules|
  {
    if rules != [] && GroupOf(rules[0].1, host).Ok? {
      GroupCallsFromRules(h, host, rules[1..]);
      forall op | op in FillHostGroupVariables(h, host, rules[1..]).ops
        ensures exists k :: 0 <= k < |rules| && IsGroupCall(h, host, rules[k], op)
      {
        var k :| 0 <= k < |rules[1..]| && IsGroupCall(h, host, rules[1..][k], op);
        assert rules[1..][k] == rules[k + 1];
      }
    }
  }

  /** When nothing raises, every extractor's variable and membership are written. */
  lemma {:induction false} GroupCallsComplete(h: string, host: Record, rules: seq<(string, Extractor)>)
    requires FillHostGroupVariables(h, host, rules).failure.None?
    ensures forall k :: 0 <= k < |rules| ==>
      && rules[k].1(host).Ok? && GroupOf(rules[k].1, host).Ok?
      && SetVar(h, rules[k].0, rules[k].1(host).value) in FillHostGroupVariables(h, host, rules).ops
      && AddToGroup(GroupOf(rules[k].1, host).value, h) in FillHostGroupVariables(h, host, rules).ops
    decreases |rules|
  {
    if rules != [] {
      GroupCallsSucceed(h, host, rules);
      GroupCallsComplete(h, host, rules[1..]);
      assert forall k :: 1 <= k < |rules| ==> rules[k] == rules[1..][k - 1];
    }
  }

  /** Group extractor `k` is the first whose value or group name raises `err`. */
  predicate FailsFirstAt(host: Record, rules: seq<(string, Extractor)>, k: int, err: Error) {
    && 0 <= k < |rules|
    && (forall j :: 0 <= j < k ==> GroupOf(rules[j].1, host).Ok?)
    && GroupOf(rules[k].1, host) == Err(err)
  }

  /** The index of the first group extractor whose value or sanitised group
      name raises, or `|rules|` when none does. */
  function FirstGroupFailure(host: Record, rules: seq<(string, Extractor)>): (k: nat)
    ensures k <= |rules|
    ensures forall j :: 0 <= j < k ==> GroupOf(rules[j].1, host).Ok?
    ensures k < |rules| ==> GroupOf(rules[k].1, host).Err?
    decreases |rules|
  {
    if rules == [] || GroupOf(rules[0].1, host).Err? then 0
    else
      var k := FirstGroupFailure(host, rules[1..]);
      assert forall j :: 1 <= j < k + 1 ==> rules[j] == rules[1..][j - 1];
      k + 1
  }

  /** How many calls `_fill_host_group_variables` makes and what it raises:
      three per extractor before the first failing one, plus that one's
      `set_variable` when only its sanitiser raised; the exception is the
      failing extractor's, and there is none exactly when none fails. */
  lemma {:induction false} GroupCallsShape(h: string, host: Record, rules: seq<(string, Extractor)>)
    ensures var e := FillHostGroupVariables(h, host, rules);
      var k := FirstGroupFailure(host, rules);
      && |e.ops| == 3 * k + (if k < |rules| && rules[k].1(host).Ok? then 1 else 0)
      && (e.failure.None? <==> k == |rules|)
      && (k < |rules| ==> e.failure == Some(GroupOf(rules[k].1, host).error))
    decreases |rules|
  {
    if rules != [] && GroupOf(rules[0].1, host).Ok? {
      GroupCallsShape(h, host, rules[1..]);
      var k := FirstGroupFailure(host, rules[1..]);
      assert FirstGroupFailure(host, rules) == k + 1;
      assert k < |rules[1..]| ==> rules[1..][k] == rules[k + 1];
    }
  }

  /** `ops[i]`, `ops[i + 1]`, `ops[i + 2]` are the `set_variable` of `v` under
      `key`, the `add_group` of `g` and the `add_host` of `h` to `g`: the calls
      one group extractor makes when neither it nor the sanitiser raises. */
  predicate GroupCallsAt(h: string, key: string, v: Json, g: string, ops: seq<Op>, i: int) {
    && 0 <= i && i + 3 <= |ops|
    && ops[i] == SetVar(h, key, v)
    && ops[i + 1] == AddGroup(g)
    && ops[i + 2] == AddToGroup(g, h)
  }

  /** Three calls in front move an extractor's calls three places on. */
  lemma GroupCallsShift(h: string, key: string, v: Json, g: string, front: seq<Op>, ops: seq<Op>, i: int)
    requires |front| == 3 && GroupCallsAt(h, key, v, g, ops, i)
    ensures GroupCallsAt(h, key, v, g, front + ops, i + 3)
  {
    assert (front + ops)[i + 3] == ops[i];
    assert (front + ops)[i + 4] == ops[i + 1];
    assert (front + ops)[i + 5] == ops[i + 2];
  }

  /** The calls of the first `k` extractors of a table, three each, from position 0. */
  predicate GroupCallsPrefix(h: string, host: Record, rules: seq<(string, Extractor)>, ops: seq<Op>, k: int) {
    && k <= |rules|
    && forall j :: 0 <= j < k ==>
         && rules[j].1(host).Ok? && GroupOf(rules[j].1, host).Ok?
         && GroupCallsAt(h, rules[j].0, rules[j].1(host).value, GroupOf(rules[j].1, host).value, ops, 3 * j)
  }

  /** The first extractor's three calls in front of the calls of the next `k`
      are the calls of the first `k + 1`. */
  lemma GroupCallsPrefixCons(h: string, host: Record, rules: seq<(string, Extractor)>, ops: seq<Op>, k: nat)
    requires rules != [] && rules[0].1(host).Ok? && GroupOf(rules[0].1, host).Ok?
    requires GroupCallsPrefix(h, host, rules[1..], ops, k)
    ensures var g := GroupOf(rules[0].1, host).value;
      GroupCallsPrefix(h, host, rules, [SetVar(h, rules[0].0, rules[0].1(host).value), AddGroup(g), AddToGroup(g, h)] + ops, k + 1)
  {
    var g := GroupOf(rules[0].1, host).value;
    var front := [SetVar(h, rules[0].0, rules[0].1(host).value), AddGroup(g), AddToGroup(g, h)];
    assert GroupCallsAt(h, rules[0].0, rules[0].1(host).value, g, front + ops, 0);
    forall j | 1 <= j < k + 1
      ensures rules[j].1(host).Ok? && GroupOf(rules[j].1, host).Ok?
      ensures GroupCallsAt(h, rules[j].0, rules[j].1(host).value, GroupOf(rules[j].1, host).value, front + ops, 3 * j)
    {
      assert rules[j] == rules[1..][j - 1];
      GroupCallsShift(h, rules[j].0, rules[j].1(host).value, GroupOf(rules[j].1, host).value, front, ops, 3 * (j - 1));
    }
  }

  /** The calls `_fill_host_group_variables` makes, position by position:
      `set_variable`, `add_group`, `add_host` for each extractor before the
      first failing one. */
  lemma {:induction false} GroupCallsOrder(h: string, host: Record, rules: seq<(string, Extractor)>)
    ensures var e := FillHostGroupVariables(h, host, rules);
      forall j :: 0 <= j < FirstGroupFailure(host, rules) ==>
        && rules[j].1(host).Ok? && GroupOf(rules[j].1, host).Ok?
        && GroupCallsAt(h, rules[j].0, rules[j].1(host).value, GroupOf(rules[j].1, host).value, e.ops, 3 * j)
    decreases |rules|
  {
    if rules != [] && GroupOf(rules[0].1, host).Ok? {
      GroupCallsOrder(h, host, rules[1..]);
      GroupFillStep(h, host, rules);
      var rest := FillHostGroupVariables(h, host, rules[1..]);
      GroupCallsPrefixCons(h, host, rules, rest.ops, FirstGroupFailure(host, rules[1..]));
    } else if rules != [] {
      GroupFillStop(h, host, rules);
    }
  }

  /** One step of the group fill: an extractor whose value and group name
      succeed makes its three calls, and the rest of the table follows. */
  lemma GroupFillStep(h: string, host: Record, rules: seq<(string, Extractor)>)
    requires rules != [] && GroupOf(rules[0].1, host).Ok?
    ensures var e := FillHostGroupVariables(h, host, rules);
      var rest := FillHostGroupVariables(h, host, rules[1..]);
      var g := GroupOf(rules[0].1, host).value;
      && rules[0].1(host).Ok?
      && e.ops == [SetVar(h, rules[0].0, rules[0].1(host).value), AddGroup(g), AddToGroup(g, h)] + rest.ops
      && e.failure == rest.failure
      && FirstGroupFailure(host, rules) == FirstGroupFailure(host, rules[1..]) + 1
  {
  }

  /** The group fill stops at an extractor whose value or group name raises:
      only its `set_variable`, and only when its value did not raise. */
  lemma GroupFillStop(h: string, host: Record, rules: seq<(string, Extractor)>)
    requires rules != [] && GroupOf(rules[0].1, host).Err?
    ensures var e := FillHostGroupVariables(h, host, rules);
      && FirstGroupFailure(host, rules) == 0
      && e.ops == (if rules[0].1(host).Ok? then [SetVar(h, rules[0].0, rules[0].1(host).value)] else [])
      && e.failure == Some(GroupOf(rules[0].1, host).error)
  {
  }

  /** When only the sanitiser of the first failing extractor raised, that
      extractor's `set_variable` follows the calls of the ones before it. */
  lemma {:induction false} GroupCallsLast(h: string, host: Record, rules: seq<(string, Extractor)>)
    ensures var e := FillHostGroupVariables(h, host, rules);
      var k := FirstGroupFailure(host, rules);
      k < |rules| && rules[k].1(host).Ok? ==>
        3 * k < |e.ops| && e.ops[3 * k] == SetVar(h, rules[k].0, rules[k].1(host).value)
    decreases |rules|
  {
    if rules != [] && GroupOf(rules[0].1, host).Ok? {
      var k := FirstGroupFailure(host, rules[1..]);
      GroupFillStep(h, host, rules);
      if k < |rules[1..]| {
        GroupCallsLast(h, host, rules[1..]);
        assert rules[k + 1] == rules[1..][k];
      }
    } else if rules != [] {
      GroupFillStop(h, host, rules);
    }
  }

  /** `_fill_host_group_variables` exactly. With `k` the first extractor whose
      value or group name raises (`|rules|` when none does): every extractor
      before `k` made its `set_variable`, `add_group` and `add_host`, in that
      order; extractor `k` made its `set_variable` when only its sanitiser
      raised; nothing after it ran; its exception is the one passed on, and
      there is none exactly when no extractor fails. */
  lemma GroupCalls(h: string, host: Record, rules: seq<(string, Extractor)>)
    ensures var e := FillHostGroupVariables(h, host, rules);
      var k := FirstGroupFailure(host, rules);
      && |e.ops| == 3 * k + (if k < |rules| && rules[k].1(host).Ok? then 1 else 0)
      && (forall j :: 0 <= j < k ==>
            && rules[j].1(host).Ok? && GroupOf(rules[j].1, host).Ok?
            && GroupCallsAt(h, rules[j].0, rules[j].1(host).value, GroupOf(rules[j].1, host).value, e.ops, 3 * j))
      && (k < |rules| && rules[k].1(host).Ok? ==> e.ops[3 * k] == SetVar(h, rules[k].0, rules[k].1(host).value))
      && (e.failure.None? <==> k == |rules|)
      && (k < |rules| ==> e.failure == Some(GroupOf(rules[k].1, host).error))
  {
    GroupCallsShape(h, host, rules);
    GroupCallsOrder(h, host, rules);
    GroupCallsLast(h, host, rules);
  }

  /** Every variable the group fill writes is written by an extractor no later
      than the first failing one, with that extractor's value. */
  lemma {:induction false} GroupCallsWriteBefore(h: string, host: Record, rules: seq<(string, Extractor)>, op: Op) returns (j: nat)
    requires op in FillHostGroupVariables(h, host, rules).ops && op.SetVar?
    ensures j < |rules| && j <= FirstGroupFailure(host, rules)
    ensures rules[j].1(host).Ok? && op == SetVar(h, rules[j].0, rules[j].1(host).value)
    decreases |rules|
  {
    assert rules != [];
    if GroupOf(rules[0].1, host).Ok? {
      GroupFillStep(h, host, rules);
      var rest := FillHostGroupVariables(h, host, rules[1..]);
      if op == SetVar(h, rules[0].0, rules[0].1(host).value) {
        j := 0;
      } else {
        assert op in rest.ops;
        var i := GroupCallsWriteBefore(h, host, rules[1..], op);
        assert rules[1..][i] == rules[i + 1];
        j := i + 1;
      }
    } else {
      GroupFillStop(h, host, rules);
      j := 0;
    }
  }

  /** Failing first at `k` after an extractor that succeeded is failing first
      at `k + 1` of the longer table. */
  lemma FailsFirstShift(host: Record, rules: seq<(string, Extractor)>, k: int, err: Error)
    requires rules != [] && GroupOf(rules[0].1, host).Ok?
    requires FailsFirstAt(host, rules[1..], k, err)
    ensures FailsFirstAt(host, rules, k + 1, err)
  {
    assert rules[1..][k] == rules[k + 1];
    assert forall j :: 1 <= j < k + 1 ==> rules[j] == rules[1..][j - 1];
  }

  /** A failure comes from the first extractor whose value or group name
      raises, and that extractor's variable is already written when only the
      sanitiser raised. */
  lemma {:induction false} GroupCallsFailure(h: string, host: Record, rules: seq<(string, Extractor)>)
    requires FillHostGroupVariables(h, host, rules).failure.Some?
    ensures var e := FillHostGroupVariables(h, host, rules);
      exists k :: FailsFirstAt(host, rules, k, e.failure.value)
        && (rules[k].1(host).Ok? ==> SetVar(h, rules[k].0, rules[k].1(host).value) in e.ops)
    decreases |rules|
  {
    var e := FillHostGroupVariables(h, host, rules);
    assert rules != [];
    if GroupOf(rules[0].1, host).Err? {
      assert FailsFirstAt(host, rules, 0, e.failure.value);
    } else {
      var v := rules[0].1(host).value;
      var g := SafeGroupName(v).value;
      var r := FillHostGroupVariables(h, host, rules[1..]);
      assert e.ops == [SetVar(h, rules[0].0, v), AddGroup(g), AddToGroup(g, h)] + r.ops;
      assert e.failure == r.failure;
      GroupCallsFailure(h, host, rules[1..]);
      var k :| FailsFirstAt(host, rules[1..], k, r.failure.value)
        && (rules[1..][k].1(host).Ok? ==> SetVar(h, rules[1..][k].0, rules[1..][k].1(host).value) in r.ops);
      FailsFirstShift(host, rules, k, r.failure.value);
      assert rules[1..][k] == rules[k + 1];
    }
  }

  // ---------------------------------------------------------------------------
  // One host

  /** `host.update({"device_platform": endpoint})`, then
      `host.update({"device_vendor": "Fortinet"})`. */
  function Annotate(host: Record, endpoint: string): (r: Record)
    ensures r.Keys == host.Keys + {"device_platform", "device_vendor"}
    ensures r["device_platform"] == JStr(endpoint) && r["device_vendor"] == JStr("Fortinet")
    ensures forall k :: k in host && k != "device_platform" && k != "device_vendor" ==> r[k] == host[k]
  {
    host["device_platform" := JStr(endpoint)]["device_vendor" := JStr("Fortinet")]
  }

  /** A variable that none of the first `n` extractors names is never written
      when extractor `m <= n` fails, provided extractor `n` itself raises in
      case `m == n`: nothing after the first failure runs. */
  lemma {:induction false} GroupFillSkips(h: string, host: Record, rules: seq<(string, Extractor)>, m: nat, n: nat, key: string)
    requires m <= n < |rules| && GroupOf(rules[m].1, host).Err?
    requires m == n ==> rules[n].1(host).Err?
    requires forall i :: 0 <= i < n ==> rules[i].0 != key
    ensures forall op :: op in FillHostGroupVariables(h, host, rules).ops && op.SetVar? ==> op.key != key
    decreases n
  {
    if GroupOf(rules[0].1, host).Ok? {
      var tail := rules[1..];
      assert tail[m - 1] == rules[m] && tail[n - 1] == rules[n];
      assert forall i :: 0 <= i < n - 1 ==> tail[i] == rules[i + 1];
      GroupFillSkips(h, host, tail, m - 1, n - 1, key);
      GroupFillStep(h, host, rules);
    } else {
      GroupFillStop(h, host, rules);
    }
  }

  /** A device whose part number is not in the table gets None as its device
      type, which the sanitiser cannot index: processing stops there, and
      `poe_switch` is never written. When the three extractors before it
      succeed, `device_type` is set to None and the exception is `TypeError`. */
  lemma UnknownPartStopsHost(h: string, rec: Record, s: string)
    requires "os_version" in rec && rec["os_version"] == JStr(s)
    requires forall p :: p in PartModelMapping ==> !NamesPart(s, p)
    ensures FillHostGroupVariables(h, rec, GroupExtractors).failure.Some?
    ensures forall op :: op in FillHostGroupVariables(h, rec, GroupExtractors).ops && op.SetVar? ==>
      op.key != "poe_switch"
    ensures (forall j :: 0 <= j < 3 ==> GroupOf(GroupExtractors[j].1, rec).Ok?) ==>
      && FillHostGroupVariables(h, rec, GroupExtractors).failure == Some(TypeError)
      && SetVar(h, "device_type", JNull) in FillHostGroupVariables(h, rec, GroupExtractors).ops
  {
    DeviceTypeOfPart(rec, s);
    assert GroupExtractors[3].1(rec) == Ok(JNull);
    assert GroupOf(GroupExtractors[3].1, rec) == Err(TypeError);
    assert FirstGroupFailure(rec, GroupExtractors) <= 3;
    GroupCallsShape(h, rec, GroupExtractors);
    GroupFillSkips(h, rec, GroupExtractors, 3, 4, "poe_switch");
    if forall j :: 0 <= j < 3 ==> GroupOf(GroupExtractors[j].1, rec).Ok? {
      assert FirstGroupFailure(rec, GroupExtractors) == 3;
      GroupCallsLast(h, rec, GroupExtractors);
      assert FillHostGroupVariables(h, rec, GroupExtractors).ops[9] == SetVar(h, "device_type", JNull);
    }
  }

  /** A device record without `ports` cannot be classified: processing stops,
      `poe_switch` is never written, and when the four extractors before it
      succeed the exception is `TypeError`. */
  lemma MissingPortsStopsHost(h: string, rec: Record)
    requires "ports" !in rec
    ensures FillHostGroupVariables(h, rec, GroupExtractors).failure.Some?
    ensures forall op :: op in FillHostGroupVariables(h, rec, GroupExtractors).ops && op.SetVar? ==>
      op.key != "poe_switch"
    ensures (forall j :: 0 <= j < 4 ==> GroupOf(GroupExtractors[j].1, rec).Ok?) ==>
      FillHostGroupVariables(h, rec, GroupExtractors).failure == Some(TypeError)
  {
    assert GroupExtractors[4].1(rec) == Err(TypeError);
    assert GroupOf(GroupExtractors[4].1, rec) == Err(TypeError);
    assert FirstGroupFailure(rec, GroupExtractors) <= 4;
    GroupCallsShape(h, rec, GroupExtractors);
    GroupFillSkips(h, rec, GroupExtractors, 4, 4, "poe_switch");
    if forall j :: 0 <= j < 4 ==> GroupOf(GroupExtractors[j].1, rec).Ok? {
      assert FirstGroupFailure(rec, GroupExtractors) == 4;
    }
  }

  /** `_fill_host_variables`, then `_fill_host_group_variables` unless the first raised. */
  function FillHost(h: string, rec: Record): (e: Emitted)
    ensures e.failure.None? ==> FillHostVariables(h, rec, VariableExtractors).failure.None?
  {
    var vars := FillHostVariables(h, rec, VariableExtractors);
    if vars.failure.Some? then vars
    else
      var groups := FillHostGroupVariables(h, rec, GroupExtractors);
      Emitted(vars.ops + groups.ops, groups.failure)
  }

  /** The calls made before any extractor runs: `add_host` and the raw `ansible_host`. */
  function RegisterHost(h: string, host: Record): seq<Op> {
    [AddHost(h), SetVar(h, "ansible_host", Get(host, "connecting_from"))]
  }

  /** The body of the per-host loop of `parse`: `host["name"]`, `add_host`,
      the raw `ansible_host`, the two annotations, the variable extractors,
      then the group extractors. The inventory refuses a name that is not a
      non-empty string. */
  function HostOps(endpoint: string, host: Json): (e: Emitted)
  {
    match host
    case JObj(m) =>
      if "name" !in m then Emitted([], Some(KeyError(JStr("name"))))
      else if !m["name"].JStr? || m["name"].s == "" then Emitted([], Some(InvalidHostName))
      else
        var h := m["name"].s;
        var filled := FillHost(h, Annotate(m, endpoint));
        Emitted(RegisterHost(h, m) + filled.ops, filled.failure)
    case _ => Emitted([], Some(TypeError))
  }

  /** A record that is not a dict, has no `name`, or whose name the inventory
      refuses raises before any call: the inventory is left as it was. */
  lemma UnusableRecordChangesNothing(inv: Inventory, endpoint: string, host: Json)
    requires !(host.JObj? && "name" in host.fields && host.fields["name"].JStr? && host.fields["name"].s != "")
    ensures ProcessHost(inv, endpoint, host).inventory == inv
    ensures ProcessHost(inv, endpoint, host).failure ==
      Some(if !host.JObj? then TypeError
           else if "name" !in host.fields then KeyError(JStr("name"))
           else InvalidHostName)
  {
  }

  /** Processing one host record on an inventory. */
  function ProcessHost(inv: Inventory, endpoint: string, host: Json): Run {
    var e := HostOps(endpoint, host);
    Run(Apply(inv, e.ops), e.failure)
  }

  /** A variable once set stays set. */
  lemma {:induction false} VarStaysSet(inv: Inventory, ops: seq<Op>, h: string, key: string)
    requires (h, key) in inv.vars
    ensures (h, key) in Apply(inv, ops).vars
    decreases |ops|
  {
    if ops != [] {
      VarStaysSet(Step(inv, ops[0]), ops[1..], h, key);
    }
  }

  /** A host only ever gains hosts. */
  lemma RegisterHostApplied(inv: Inventory, h: string, host: Record)
    ensures h in Apply(inv, RegisterHost(h, host)).hosts
    ensures (h, "ansible_host") in Apply(inv, RegisterHost(h, host)).vars
    ensures Apply(inv, RegisterHost(h, host)).groups == inv.groups
  {
    var start := RegisterHost(h, host);
    assert start[1..][1..] == [];
    assert Apply(inv, start) == Apply(Step(inv, start[0]), start[1..]);
    assert Apply(Step(inv, start[0]), start[1..]) == Apply(Step(Step(inv, start[0]), start[1]), start[1..][1..]);
  }

  /** A host with a usable name is registered before any extractor can raise,
      and ends with `ansible_host` holding the lower-cased `connecting_from`
      (the raw value set at registration is overwritten), whether or not a
      later extractor raises. */
  lemma HostRegisteredFirst(inv: Inventory, endpoint: string, m: Record, h: string)
    requires "name" in m && m["name"] == JStr(h) && h != ""
    ensures h in ProcessHost(inv, endpoint, JObj(m)).inventory.hosts
    ensures (h, "ansible_host") in ProcessHost(inv, endpoint, JObj(m)).inventory.vars
    ensures ProcessHost(inv, endpoint, JObj(m)).inventory.vars[(h, "ansible_host")] == LowerField(m, "connecting_from")
  {
    var start := RegisterHost(h, m);
    var rest := FillHost(h, Annotate(m, endpoint)).ops;
    assert HostOps(endpoint, JObj(m)).ops == start + rest;
    ApplyConcat(inv, start, rest);
    RegisterHostApplied(inv, h, m);
    VarStaysSet(Apply(inv, start), rest, h, "ansible_host");
    FillHostAnsibleHost(Apply(inv, start), h, Annotate(m, endpoint));
    AnnotateKeeps(m, endpoint, "connecting_from");
  }

  /** Both tables, in the order a host's variables are written. */
  const AllExtractors: seq<(string, Extractor)> := VariableExtractors + GroupExtractors

  /** The names of the variables the extractors write. */
  const ExtractorKeys: set<string> := set i | 0 <= i < |AllExtractors| :: AllExtractors[i].0

  /** No two extractors share a variable name, so each variable is written by
      one extractor only. */
  lemma ExtractorKeysDistinct()
    ensures forall i, j :: 0 <= i < |AllExtractors| && 0 <= j < |AllExtractors| && AllExtractors[i].0 == AllExtractors[j].0 ==> i == j
  {
  }

  /** Each variable a group extractor writes is its own, with its value. */
  lemma GroupWrite(h: string, rec: Record, op: Op) returns (k: nat)
    requires op in FillHostGroupVariables(h, rec, GroupExtractors).ops && op.SetVar?
    ensures k < |GroupExtractors| && IsGroupCall(h, rec, GroupExtractors[k], op)
  {
    GroupCallsFromRules(h, rec, GroupExtractors);
    var i :| 0 <= i < |GroupExtractors| && IsGroupCall(h, rec, GroupExtractors[i], op);
    k := i;
  }

  /** A variable written by a group extractor is the extractor's own. */
  lemma GroupCallWrite(h: string, rec: Record, rule: (string, Extractor), op: Op)
    requires IsGroupCall(h, rec, rule, op) && op.SetVar?
    ensures op.host == h && op.key == rule.0 && op.value == rule.1(rec).value
  {
  }

  /** Each variable a variable extractor writes is its own, with its value. */
  lemma VariableWrite(h: string, rec: Record, op: Op) returns (k: nat)
    requires op in FillHostVariables(h, rec, VariableExtractors).ops
    ensures k < |VariableExtractors| && op.SetVar? && op.host == h
    ensures op.key == VariableExtractors[k].0 && VariableExtractors[k].1(rec).Ok? && op.value == VariableExtractors[k].1(rec).value
  {
    var vars := FillHostVariables(h, rec, VariableExtractors);
    VariableCalls(h, rec, VariableExtractors);
    var i :| 0 <= i < |vars.ops| && vars.ops[i] == op;
    k := i;
  }

  /** The groups the group extractors put a record in. */
  ghost predicate IsHostGroup(rec: Record, g: string) {
    exists k :: 0 <= k < |GroupExtractors| && GroupOf(GroupExtractors[k].1, rec) == Ok(g)
  }

  /** Every variable `FillHost` writes is the host's, under an extractor's
      name, with that extractor's value; this holds also when it stops early. */
  lemma FillHostWrite(h: string, rec: Record, op: Op) returns (i: nat)
    requires op in FillHost(h, rec).ops && op.SetVar?
    ensures i < |AllExtractors| && op.host == h && op.key == AllExtractors[i].0
    ensures AllExtractors[i].1(rec).Ok? && op.value == AllExtractors[i].1(rec).value
  {
    var vars := FillHostVariables(h, rec, VariableExtractors);
    if op in vars.ops {
      i := VariableWrite(h, rec, op);
      assert AllExtractors[i] == VariableExtractors[i];
    } else {
      var groups := FillHostGroupVariables(h, rec, GroupExtractors);
      assert FillHost(h, rec).ops == vars.ops + groups.ops;
      var k := GroupWrite(h, rec, op);
      GroupCallWrite(h, rec, GroupExtractors[k], op);
      i := |VariableExtractors| + k;
      assert AllExtractors[i] == GroupExtractors[k];
    }
  }

  /** `FillHost` only ever touches host `h`: it registers no other host, writes
      only `h`'s variables and adds only `h` to groups. */
  lemma FillHostConcerns(h: string, rec: Record, op: Op)
    requires op in FillHost(h, rec).ops
    ensures !op.AddHost?
    ensures op.SetVar? ==> op.host == h && op.key in ExtractorKeys
    ensures op.AddToGroup? ==> op.member == h
  {
    var vars := FillHostVariables(h, rec, VariableExtractors);
    var groups := FillHostGroupVariables(h, rec, GroupExtractors);
    if op.SetVar? {
      var i := FillHostWrite(h, rec, op);
    } else if op in vars.ops {
      var k := VariableWrite(h, rec, op);
    } else {
      assert FillHost(h, rec).ops == vars.ops + groups.ops;
      GroupCallsFromRules(h, rec, GroupExtractors);
    }
  }

  /** A membership added by a group extractor is in the extractor's group. */
  lemma GroupCallMembership(h: string, rec: Record, rule: (string, Extractor), g: string, x: string)
    requires IsGroupCall(h, rec, rule, AddToGroup(g, x))
    ensures x == h && GroupOf(rule.1, rec) == Ok(g)
  {
  }

  /** Which calls a successful `FillHost` makes on groups. */
  lemma FillHostMemberships(h: string, rec: Record, g: string, x: string)
    requires FillHost(h, rec).failure.None?
    ensures AddToGroup(g, x) in FillHost(h, rec).ops <==> x == h && IsHostGroup(rec, g)
  {
    var vars := FillHostVariables(h, rec, VariableExtractors);
    var groups := FillHostGroupVariables(h, rec, GroupExtractors);
    assert FillHost(h, rec).ops == vars.ops + groups.ops;
    var op := AddToGroup(g, x);
    if op in vars.ops {
      var k := VariableWrite(h, rec, op);
    }
    if op in groups.ops {
      GroupCallsFromRules(h, rec, GroupExtractors);
      var k :| 0 <= k < |GroupExtractors| && IsGroupCall(h, rec, GroupExtractors[k], op);
      GroupCallMembership(h, rec, GroupExtractors[k], g, x);
    }
    if x == h && IsHostGroup(rec, g) {
      var k :| 0 <= k < |GroupExtractors| && GroupOf(GroupExtractors[k].1, rec) == Ok(g);
      GroupCallsComplete(h, rec, GroupExtractors);
      assert AddToGroup(GroupOf(GroupExtractors[k].1, rec).value, h) in groups.ops;
    }
  }

  /** When `_fill_host_variables` completes, every extractor's value was
      written under its name. */
  lemma VariablesAllWritten(h: string, rec: Record, rules: seq<(string, Extractor)>)
    requires FillHostVariables(h, rec, rules).failure.None?
    ensures forall i :: 0 <= i < |rules| ==>
      rules[i].1(rec).Ok? && SetVar(h, rules[i].0, rules[i].1(rec).value) in FillHostVariables(h, rec, rules).ops
  {
    var e := FillHostVariables(h, rec, rules);
    VariableCalls(h, rec, rules);
    forall i | 0 <= i < |rules|
      ensures rules[i].1(rec).Ok? && SetVar(h, rules[i].0, rules[i].1(rec).value) in e.ops
    {
      assert e.ops[i] in e.ops;
    }
  }

  /** A successful `FillHost` writes every extractor's variable. */
  lemma FillHostWritesAll(h: string, rec: Record)
    requires FillHost(h, rec).failure.None?
    ensures forall i :: 0 <= i < |AllExtractors| ==>
      AllExtractors[i].1(rec).Ok? && SetVar(h, AllExtractors[i].0, AllExtractors[i].1(rec).value) in FillHost(h, rec).ops
  {
    var vars := FillHostVariables(h, rec, VariableExtractors);
    var groups := FillHostGroupVariables(h, rec, GroupExtractors);
    assert FillHost(h, rec).ops == vars.ops + groups.ops;
    GroupCallsComplete(h, rec, GroupExtractors);
    VariablesAllWritten(h, rec, VariableExtractors);
    forall i | 0 <= i < |AllExtractors|
      ensures AllExtractors[i].1(rec).Ok? && SetVar(h, AllExtractors[i].0, AllExtractors[i].1(rec).value) in FillHost(h, rec).ops
    {
      if i < |VariableExtractors| {
        assert AllExtractors[i] == VariableExtractors[i];
      } else {
        assert AllExtractors[i] == GroupExtractors[i - |VariableExtractors|];
      }
    }
  }

  /** A successful `FillHost` leaves each extractor's variable holding the value
      that extractor computed: no other extractor writes it. */
  lemma FillHostFinalVar(inv: Inventory, h: string, rec: Record, i: nat)
    requires FillHost(h, rec).failure.None? && i < |AllExtractors|
    ensures AllExtractors[i].1(rec).Ok?
    ensures (h, AllExtractors[i].0) in Apply(inv, FillHost(h, rec).ops).vars
    ensures Apply(inv, FillHost(h, rec).ops).vars[(h, AllExtractors[i].0)] == AllExtractors[i].1(rec).value
  {
    var ops := FillHost(h, rec).ops;
    var key := AllExtractors[i].0;
    FillHostWritesAll(h, rec);
    ExtractorKeysDistinct();
    forall op | op in ops && op.SetVar? && op.host == h && op.key == key
      ensures op.value == AllExtractors[i].1(rec).value
    {
      var j := FillHostWrite(h, rec, op);
    }
    ApplyAgreeingWrite(inv, ops, h, key, AllExtractors[i].1(rec).value);
  }

  /** The calls processing a host makes all concern that host; the raw
      `ansible_host` is among the extractors' names. */
  lemma HostOpsConcern(endpoint: string, m: Record, h: string, op: Op)
    requires "name" in m && m["name"] == JStr(h) && h != ""
    requires op in HostOps(endpoint, JObj(m)).ops
    ensures op.AddHost? ==> op.host == h
    ensures op.SetVar? ==> op.host == h && op.key in ExtractorKeys
    ensures op.AddToGroup? ==> op.member == h
  {
    var start := RegisterHost(h, m);
    var rest := FillHost(h, Annotate(m, endpoint)).ops;
    assert HostOps(endpoint, JObj(m)).ops == start + rest;
    if op in rest {
      FillHostConcerns(h, Annotate(m, endpoint), op);
    } else {
      assert AllExtractors[0].0 == "ansible_host";
    }
  }

  /** Processing a host leaves every other host's variables, and its own
      variables outside the extractors' names, as they were. */
  lemma ProcessHostFrameVars(inv: Inventory, endpoint: string, m: Record, h: string, x: string, key: string)
    requires "name" in m && m["name"] == JStr(h) && h != ""
    requires x != h || key !in ExtractorKeys
    ensures var out := ProcessHost(inv, endpoint, JObj(m)).inventory;
      && ((x, key) in out.vars <==> (x, key) in inv.vars)
      && ((x, key) in inv.vars ==> out.vars[(x, key)] == inv.vars[(x, key)])
  {
    var ops := HostOps(endpoint, JObj(m)).ops;
    forall op | op in ops && op.SetVar? ensures (op.host, op.key) != (x, key) {
      HostOpsConcern(endpoint, m, h, op);
    }
    ApplyUntouchedVar(inv, ops, x, key);
  }

  /** Processing a host registers that host and no other. */
  lemma ProcessHostFrameHosts(inv: Inventory, endpoint: string, m: Record, h: string)
    requires "name" in m && m["name"] == JStr(h) && h != ""
    ensures ProcessHost(inv, endpoint, JObj(m)).inventory.hosts == inv.hosts + {h}
  {
    var ops := HostOps(endpoint, JObj(m)).ops;
    var out := Apply(inv, ops);
    assert ops[0] == AddHost(h);
    forall x ensures x in out.hosts <==> x in inv.hosts + {h} {
      ApplyHosts(inv, ops, x);
      if exists g :: AddToGroup(g, x) in ops {
        var g :| AddToGroup(g, x) in ops;
        HostOpsConcern(endpoint, m, h, AddToGroup(g, x));
      }
      if AddHost(x) in ops {
        HostOpsConcern(endpoint, m, h, AddHost(x));
      }
    }
  }

  /** Processing a host changes no other host's group memberships. */
  lemma ProcessHostFrameGroups(inv: Inventory, endpoint: string, m: Record, h: string, g: string, x: string)
    requires "name" in m && m["name"] == JStr(h) && h != "" && x != h
    ensures InGroup(ProcessHost(inv, endpoint, JObj(m)).inventory, g, x) <==> InGroup(inv, g, x)
  {
    var ops := HostOps(endpoint, JObj(m)).ops;
    ApplyMembership(inv, ops, g, x);
    if AddToGroup(g, x) in ops {
      HostOpsConcern(endpoint, m, h, AddToGroup(g, x));
    }
  }

  /** A record field the annotation does not overwrite reads the same. */
  lemma AnnotateKeeps(m: Record, endpoint: string, key: string)
    requires key != "device_platform" && key != "device_vendor"
    ensures Get(Annotate(m, endpoint), key) == Get(m, key)
    ensures key in Annotate(m, endpoint) <==> key in m
  {
  }

  lemma LowerFortinet()
    ensures Lower("Fortinet") == "fortinet"
  {
  }

  /** The pass-through extractors of untouched fields read the fetched record. */
  lemma AnnotatedPassThrough(m: Record, endpoint: string)
    ensures var rec := Annotate(m, endpoint);
      && AllExtractors[0].0 == "ansible_host" && AllExtractors[0].1(rec) == Ok(LowerField(m, "connecting_from"))
      && AllExtractors[1].0 == "device_serial" && AllExtractors[1].1(rec) == Ok(LowerField(m, "serial"))
      && AllExtractors[4].0 == "device_status" && AllExtractors[4].1(rec) == Ok(LowerField(m, "status"))
  {
    AnnotateKeeps(m, endpoint, "connecting_from");
    AnnotateKeeps(m, endpoint, "serial");
    AnnotateKeeps(m, endpoint, "status");
  }

  /** The vendor extractor reads the vendor annotation. */
  lemma AnnotatedVendor(m: Record, endpoint: string)
    ensures AllExtractors[2].0 == "device_vendor"
    ensures AllExtractors[2].1(Annotate(m, endpoint)) == Ok(JStr("fortinet"))
  {
    var rec := Annotate(m, endpoint);
    assert Get(rec, "device_vendor") == JStr("Fortinet");
    LowerFortinet();
    assert LowerField(rec, "device_vendor") == JStr("fortinet");
  }

  /** The platform extractor reads the endpoint annotation. */
  lemma AnnotatedPlatform(m: Record, endpoint: string)
    ensures AllExtractors[6].0 == "device_platform"
    ensures AllExtractors[6].1(Annotate(m, endpoint)) == Ok(JStr(Lower(endpoint)))
  {
    assert Get(Annotate(m, endpoint), "device_platform") == JStr(endpoint);
  }

  /** The `os_version` extractors read the same field of the annotated record. */
  lemma AnnotatedOsVersion(m: Record, endpoint: string)
    ensures var rec := Annotate(m, endpoint);
      && AllExtractors[3].0 == "ansible_distribution_release" && AllExtractors[3].1(rec) == ExtractOsRelease(m)
      && AllExtractors[5].0 == "ansible_distribution_version" && AllExtractors[5].1(rec) == ExtractOsVersion(m)
  {
    AnnotateKeeps(m, endpoint, "os_version");
  }

  /** The device-type and PoE extractors read the same fields of the annotated record. */
  lemma AnnotatedDevice(m: Record, endpoint: string)
    ensures var rec := Annotate(m, endpoint);
      && AllExtractors[7].0 == "device_type" && AllExtractors[7].1(rec) == ExtractDeviceType(m)
      && AllExtractors[8].0 == "poe_switch" && AllExtractors[8].1(rec) == ExtractPoeCapable(m)
  {
    AnnotateKeeps(m, endpoint, "os_version");
    AnnotateKeeps(m, endpoint, "ports");
  }

  /** After a host is processed without exception every extractor's variable
      holds that extractor's value on the annotated record. */
  lemma ProcessedHostVariables(inv: Inventory, endpoint: string, m: Record, h: string)
    requires "name" in m && m["name"] == JStr(h) && h != ""
    requires ProcessHost(inv, endpoint, JObj(m)).failure.None?
    ensures var out := ProcessHost(inv, endpoint, JObj(m)).inventory;
      forall i :: 0 <= i < |AllExtractors| ==>
        && AllExtractors[i].1(Annotate(m, endpoint)).Ok?
        && (h, AllExtractors[i].0) in out.vars
        && out.vars[(h, AllExtractors[i].0)] == AllExtractors[i].1(Annotate(m, endpoint)).value
  {
    var rec := Annotate(m, endpoint);
    var start := RegisterHost(h, m);
    var rest := FillHost(h, rec).ops;
    assert HostOps(endpoint, JObj(m)) == Emitted(start + rest, None);
    ApplyConcat(inv, start, rest);
    forall i | 0 <= i < |AllExtractors|
      ensures && AllExtractors[i].1(rec).Ok?
        && (h, AllExtractors[i].0) in Apply(Apply(inv, start), rest).vars
        && Apply(Apply(inv, start), rest).vars[(h, AllExtractors[i].0)] == AllExtractors[i].1(rec).value
    {
      FillHostFinalVar(Apply(inv, start), h, rec, i);
    }
  }

  /** Whatever the later extractors do, `FillHost` leaves `ansible_host` holding
      the lower-cased `connecting_from`: that extractor runs first and never
      raises, and no other extractor writes the name. */
  lemma FillHostAnsibleHost(inv: Inventory, h: string, rec: Record)
    ensures (h, "ansible_host") in Apply(inv, FillHost(h, rec).ops).vars
    ensures Apply(inv, FillHost(h, rec).ops).vars[(h, "ansible_host")] == LowerField(rec, "connecting_from")
  {
    var ops := FillHost(h, rec).ops;
    var vars := FillHostVariables(h, rec, VariableExtractors);
    var v := LowerField(rec, "connecting_from");
    VariableCalls(h, rec, VariableExtractors);
    assert VariableExtractors[0].1(rec) == Ok(v);
    assert |vars.ops| > 0;
    assert vars.ops[0] == SetVar(h, "ansible_host", v);
    assert vars.ops[0] in ops;
    ExtractorKeysDistinct();
    assert AllExtractors[0].0 == "ansible_host";
    forall op | op in ops && op.SetVar? && op.host == h && op.key == "ansible_host"
      ensures op.value == v
    {
      var i := FillHostWrite(h, rec, op);
      assert i == 0;
    }
    ApplyAgreeingWrite(inv, ops, h, "ansible_host", v);
  }

  /** After a host is processed without exception it holds the nine variables
      the extractors compute, the host is in exactly its earlier groups plus the
      sanitised group-extractor values, and nothing about any other host
      changed. `ansible_host` ends as the lower-cased `connecting_from`: the
      extractor overwrites the raw value set first. */
  lemma ProcessedHost(inv: Inventory, endpoint: string, m: Record, h: string)
    requires "name" in m && m["name"] == JStr(h) && h != ""
    requires ProcessHost(inv, endpoint, JObj(m)).failure.None?
    ensures var out := ProcessHost(inv, endpoint, JObj(m)).inventory;
      && out.hosts == inv.hosts + {h}
      && (h, "ansible_host") in out.vars && out.vars[(h, "ansible_host")] == LowerField(m, "connecting_from")
      && (h, "device_serial") in out.vars && out.vars[(h, "device_serial")] == LowerField(m, "serial")
      && (h, "device_vendor") in out.vars && out.vars[(h, "device_vendor")] == JStr("fortinet")
      && ExtractOsRelease(m).Ok?
      && (h, "ansible_distribution_release") in out.vars
      && out.vars[(h, "ansible_distribution_release")] == ExtractOsRelease(m).value
      && (h, "device_status") in out.vars && out.vars[(h, "device_status")] == LowerField(m, "status")
      && ExtractOsVersion(m).Ok?
      && (h, "ansible_distribution_version") in out.vars
      && out.vars[(h, "ansible_distribution_version")] == ExtractOsVersion(m).value
      && (h, "device_platform") in out.vars && out.vars[(h, "device_platform")] == JStr(Lower(endpoint))
      && ExtractDeviceType(m).Ok?
      && (h, "device_type") in out.vars && out.vars[(h, "device_type")] == ExtractDeviceType(m).value
      && ExtractPoeCapable(m).Ok?
      && (h, "poe_switch") in out.vars && out.vars[(h, "poe_switch")] == ExtractPoeCapable(m).value
      && (forall g :: InGroup(out, g, h) <==> InGroup(inv, g, h) || IsHostGroup(Annotate(m, endpoint), g))
      && (forall x, key :: x != h ==>
            && ((x, key) in out.vars <==> (x, key) in inv.vars)
            && ((x, key) in inv.vars ==> out.vars[(x, key)] == inv.vars[(x, key)]))
      && (forall g, x :: x != h ==> (InGroup(out, g, x) <==> InGroup(inv, g, x)))
  {
    var rec := Annotate(m, endpoint);
    var out := ProcessHost(inv, endpoint, JObj(m)).inventory;
    ProcessHostFrameHosts(inv, endpoint, m, h);
    ProcessedHostVariables(inv, endpoint, m, h);
    AnnotatedPassThrough(m, endpoint);
    AnnotatedVendor(m, endpoint);
    AnnotatedPlatform(m, endpoint);
    AnnotatedOsVersion(m, endpoint);
    AnnotatedDevice(m, endpoint);
    ProcessedHostGroups(inv, endpoint, m, h);
    forall x, key | x != h
      ensures && ((x, key) in out.vars <==> (x, key) in inv.vars)
        && ((x, key) in inv.vars ==> out.vars[(x, key)] == inv.vars[(x, key)])
    {
      ProcessHostFrameVars(inv, endpoint, m, h, x, key);
    }
    forall g, x | x != h ensures InGroup(out, g, x) <==> InGroup(inv, g, x) {
      ProcessHostFrameGroups(inv, endpoint, m, h, g, x);
    }
  }

  /** After a host is processed without exception it is in exactly its earlier
      groups plus the sanitised group-extractor values. */
  lemma ProcessedHostGroups(inv: Inventory, endpoint: string, m: Record, h: string)
    requires "name" in m && m["name"] == JStr(h) && h != ""
    requires ProcessHost(inv, endpoint, JObj(m)).failure.None?
    ensures forall g :: InGroup(ProcessHost(inv, endpoint, JObj(m)).inventory, g, h) <==>
      InGroup(inv, g, h) || IsHostGroup(Annotate(m, endpoint), g)
  {
    var rec := Annotate(m, endpoint);
    var start := RegisterHost(h, m);
    var rest := FillHost(h, rec).ops;
    assert HostOps(endpoint, JObj(m)) == Emitted(start + rest, None);
    ApplyConcat(inv, start, rest);
    var mid := Apply(inv, start);
    RegisterHostApplied(inv, h, m);
    forall g ensures InGroup(Apply(mid, rest), g, h) <==> InGroup(inv, g, h) || IsHostGroup(rec, g) {
      ApplyMembership(mid, rest, g, h);
      FillHostMemberships(h, rec, g, h);
    }
  }


  // ---------------------------------------------------------------------------
  // A host that raises part-way

  /** A value `FillHost` writes is the host's final value for that name,
      whatever runs or raises afterwards: no other extractor writes the name. */
  lemma HostOpsFinalVar(inv: Inventory, endpoint: string, m: Record, h: string, key: string, v: Json)
    requires "name" in m && m["name"] == JStr(h) && h != ""
    requires SetVar(h, key, v) in FillHost(h, Annotate(m, endpoint)).ops
    ensures var out := ProcessHost(inv, endpoint, JObj(m)).inventory;
      (h, key) in out.vars && out.vars[(h, key)] == v
  {
    var rec := Annotate(m, endpoint);
    var start := RegisterHost(h, m);
    var rest := FillHost(h, rec).ops;
    assert HostOps(endpoint, JObj(m)).ops == start + rest;
    ApplyConcat(inv, start, rest);
    ExtractorKeysDistinct();
    var i := FillHostWrite(h, rec, SetVar(h, key, v));
    forall op | op in rest && op.SetVar? && op.host == h && op.key == key
      ensures op.value == v
    {
      var j := FillHostWrite(h, rec, op);
    }
    ApplyAgreeingWrite(Apply(inv, start), rest, h, key, v);
  }

  /** Every membership the group fill adds is of this host, in the group of an
      extractor before the first failing one. */
  lemma {:induction false} GroupCallsMemberBefore(h: string, host: Record, rules: seq<(string, Extractor)>, g: string, x: string) returns (j: nat)
    requires AddToGroup(g, x) in FillHostGroupVariables(h, host, rules).ops
    ensures j < FirstGroupFailure(host, rules) && x == h && GroupOf(rules[j].1, host) == Ok(g)
    decreases |rules|
  {
    assert rules != [];
    if GroupOf(rules[0].1, host).Ok? {
      GroupFillStep(h, host, rules);
      var rest := FillHostGroupVariables(h, host, rules[1..]);
      if AddToGroup(g, x) == AddToGroup(GroupOf(rules[0].1, host).value, h) {
        j := 0;
      } else {
        assert AddToGroup(g, x) in rest.ops;
        var i := GroupCallsMemberBefore(h, host, rules[1..], g, x);
        assert rules[1..][i] == rules[i + 1];
        j := i + 1;
      }
    } else {
      GroupFillStop(h, host, rules);
    }
  }

  /** The variable names of the two tables, and the raw `ansible_host`: no
      group extractor shares its name with a variable extractor, with
      `ansible_host` or with another group extractor. */
  lemma TableKeysDistinct()
    ensures forall i, j :: 0 <= i < |VariableExtractors| && 0 <= j < |GroupExtractors| ==>
      VariableExtractors[i].0 != GroupExtractors[j].0
    ensures forall i, j :: 0 <= i < j < |GroupExtractors| ==> GroupExtractors[i].0 != GroupExtractors[j].0
    ensures forall j :: 0 <= j < |GroupExtractors| ==> GroupExtractors[j].0 != "ansible_host"
  {
  }

  /** A variable extractor's written value is the host's final value. */
  lemma VariableWriteKept(inv: Inventory, endpoint: string, m: Record, h: string, key: string, v: Json)
    requires "name" in m && m["name"] == JStr(h) && h != ""
    requires SetVar(h, key, v) in FillHostVariables(h, Annotate(m, endpoint), VariableExtractors).ops
    ensures var out := ProcessHost(inv, endpoint, JObj(m)).inventory;
      (h, key) in out.vars && out.vars[(h, key)] == v
  {
    var rec := Annotate(m, endpoint);
    var vars := FillHostVariables(h, rec, VariableExtractors);
    if vars.failure.None? {
      assert FillHost(h, rec).ops == vars.ops + FillHostGroupVariables(h, rec, GroupExtractors).ops;
    }
    HostOpsFinalVar(inv, endpoint, m, h, key, v);
  }

  /** A group extractor's written value is the host's final value. */
  lemma GroupWriteKept(inv: Inventory, endpoint: string, m: Record, h: string, key: string, v: Json)
    requires "name" in m && m["name"] == JStr(h) && h != ""
    requires FillHostVariables(h, Annotate(m, endpoint), VariableExtractors).failure.None?
    requires SetVar(h, key, v) in FillHostGroupVariables(h, Annotate(m, endpoint), GroupExtractors).ops
    ensures var out := ProcessHost(inv, endpoint, JObj(m)).inventory;
      (h, key) in out.vars && out.vars[(h, key)] == v
  {
    var rec := Annotate(m, endpoint);
    assert FillHost(h, rec).ops == FillHostVariables(h, rec, VariableExtractors).ops + FillHostGroupVariables(h, rec, GroupExtractors).ops;
    HostOpsFinalVar(inv, endpoint, m, h, key, v);
  }

  /** When a variable extractor raises, the host keeps the values of the
      extractors before it and the exception is passed on. */
  lemma VariablesFailWrites(inv: Inventory, endpoint: string, m: Record, h: string)
    requires "name" in m && m["name"] == JStr(h) && h != ""
    requires FillHostVariables(h, Annotate(m, endpoint), VariableExtractors).failure.Some?
    ensures var rec := Annotate(m, endpoint);
      var vars := FillHostVariables(h, rec, VariableExtractors);
      var out := ProcessHost(inv, endpoint, JObj(m));
      && |vars.ops| < |VariableExtractors|
      && VariableExtractors[|vars.ops|].1(rec) == Err(vars.failure.value)
      && out.failure == vars.failure
      && forall i :: 0 <= i < |vars.ops| ==>
           && VariableExtractors[i].1(rec).Ok?
           && (h, VariableExtractors[i].0) in out.inventory.vars
           && out.inventory.vars[(h, VariableExtractors[i].0)] == VariableExtractors[i].1(rec).value
  {
    var rec := Annotate(m, endpoint);
    var vars := FillHostVariables(h, rec, VariableExtractors);
    VariableCalls(h, rec, VariableExtractors);
    assert FillHost(h, rec) == vars;
    forall i | 0 <= i < |vars.ops|
      ensures && VariableExtractors[i].1(rec).Ok?
        && (h, VariableExtractors[i].0) in ProcessHost(inv, endpoint, JObj(m)).inventory.vars
        && ProcessHost(inv, endpoint, JObj(m)).inventory.vars[(h, VariableExtractors[i].0)] == VariableExtractors[i].1(rec).value
    {
      assert vars.ops[i] in vars.ops;
      VariableWriteKept(inv, endpoint, m, h, VariableExtractors[i].0, VariableExtractors[i].1(rec).value);
    }
  }

  /** When a variable extractor raises, the group fill never runs: the host
      joins no group and no group extractor's variable changes. */
  lemma VariablesFailSkipsGroups(inv: Inventory, endpoint: string, m: Record, h: string)
    requires "name" in m && m["name"] == JStr(h) && h != ""
    requires FillHostVariables(h, Annotate(m, endpoint), VariableExtractors).failure.Some?
    ensures var out := ProcessHost(inv, endpoint, JObj(m)).inventory;
      && (forall g :: InGroup(out, g, h) <==> InGroup(inv, g, h))
      && forall j :: 0 <= j < |GroupExtractors| ==>
           && ((h, GroupExtractors[j].0) in out.vars <==> (h, GroupExtractors[j].0) in inv.vars)
           && ((h, GroupExtractors[j].0) in inv.vars ==> out.vars[(h, GroupExtractors[j].0)] == inv.vars[(h, GroupExtractors[j].0)])
  {
    var rec := Annotate(m, endpoint);
    var vars := FillHostVariables(h, rec, VariableExtractors);
    var ops := HostOps(endpoint, JObj(m)).ops;
    assert FillHost(h, rec) == vars;
    assert ops == RegisterHost(h, m) + vars.ops;
    TableKeysDistinct();
    forall g ensures InGroup(Apply(inv, ops), g, h) <==> InGroup(inv, g, h) {
      ApplyMembership(inv, ops, g, h);
      if AddToGroup(g, h) in vars.ops {
        var k := VariableWrite(h, rec, AddToGroup(g, h));
      }
    }
    forall j | 0 <= j < |GroupExtractors|
      ensures && ((h, GroupExtractors[j].0) in Apply(inv, ops).vars <==> (h, GroupExtractors[j].0) in inv.vars)
        && ((h, GroupExtractors[j].0) in inv.vars ==> Apply(inv, ops).vars[(h, GroupExtractors[j].0)] == inv.vars[(h, GroupExtractors[j].0)])
    {
      var key := GroupExtractors[j].0;
      forall op | op in ops && op.SetVar? ensures (op.host, op.key) != (h, key) {
        if op in vars.ops {
          var k := VariableWrite(h, rec, op);
        } else {
          assert op.key == "ansible_host";
        }
      }
      ApplyUntouchedVar(inv, ops, h, key);
    }
  }

  /** When the variable fill completes, every variable extractor's value is
      kept and the group fill's exception is passed on. */
  lemma GroupsFailVariables(inv: Inventory, endpoint: string, m: Record, h: string)
    requires "name" in m && m["name"] == JStr(h) && h != ""
    requires FillHostVariables(h, Annotate(m, endpoint), VariableExtractors).failure.None?
    ensures var rec := Annotate(m, endpoint);
      var out := ProcessHost(inv, endpoint, JObj(m));
      && out.failure == FillHostGroupVariables(h, rec, GroupExtractors).failure
      && forall i :: 0 <= i < |VariableExtractors| ==>
           && VariableExtractors[i].1(rec).Ok?
           && (h, VariableExtractors[i].0) in out.inventory.vars
           && out.inventory.vars[(h, VariableExtractors[i].0)] == VariableExtractors[i].1(rec).value
  {
    var rec := Annotate(m, endpoint);
    VariablesAllWritten(h, rec, VariableExtractors);
    forall i | 0 <= i < |VariableExtractors|
      ensures && VariableExtractors[i].1(rec).Ok?
        && (h, VariableExtractors[i].0) in ProcessHost(inv, endpoint, JObj(m)).inventory.vars
        && ProcessHost(inv, endpoint, JObj(m)).inventory.vars[(h, VariableExtractors[i].0)] == VariableExtractors[i].1(rec).value
    {
      assert SetVar(h, VariableExtractors[i].0, VariableExtractors[i].1(rec).value) in FillHostVariables(h, rec, VariableExtractors).ops;
      VariableWriteKept(inv, endpoint, m, h, VariableExtractors[i].0, VariableExtractors[i].1(rec).value);
    }
  }

  /** The calls of one extractor before the first failing one. */
  lemma GroupCallsAtIndex(h: string, host: Record, rules: seq<(string, Extractor)>, j: nat)
    requires j < FirstGroupFailure(host, rules)
    ensures rules[j].1(host).Ok? && GroupOf(rules[j].1, host).Ok?
    ensures GroupCallsAt(h, rules[j].0, rules[j].1(host).value, GroupOf(rules[j].1, host).value,
                         FillHostGroupVariables(h, host, rules).ops, 3 * j)
  {
    GroupCallsOrder(h, host, rules);
  }

  /** When the variable fill completes, a group extractor before the first
      one that raises has written its value, and the host keeps it. */
  lemma GroupsFailKeptAt(inv: Inventory, endpoint: string, m: Record, h: string, j: nat)
    requires "name" in m && m["name"] == JStr(h) && h != ""
    requires FillHostVariables(h, Annotate(m, endpoint), VariableExtractors).failure.None?
    requires j < FirstGroupFailure(Annotate(m, endpoint), GroupExtractors)
    ensures var rec := Annotate(m, endpoint);
      var out := ProcessHost(inv, endpoint, JObj(m)).inventory;
      && GroupExtractors[j].1(rec).Ok?
      && (h, GroupExtractors[j].0) in out.vars
      && out.vars[(h, GroupExtractors[j].0)] == GroupExtractors[j].1(rec).value
  {
    var rec := Annotate(m, endpoint);
    var groups := FillHostGroupVariables(h, rec, GroupExtractors);
    GroupCallsAtIndex(h, rec, GroupExtractors, j);
    assert groups.ops[3 * j] in groups.ops;
    GroupWriteKept(inv, endpoint, m, h, GroupExtractors[j].0, GroupExtractors[j].1(rec).value);
  }

  /** When the variable fill completes, a group extractor before the first
      one that raises has put the host in its sanitised group. */
  lemma GroupsFailJoinedAt(inv: Inventory, endpoint: string, m: Record, h: string, j: nat)
    requires "name" in m && m["name"] == JStr(h) && h != ""
    requires FillHostVariables(h, Annotate(m, endpoint), VariableExtractors).failure.None?
    requires j < FirstGroupFailure(Annotate(m, endpoint), GroupExtractors)
    ensures var rec := Annotate(m, endpoint);
      && GroupOf(GroupExtractors[j].1, rec).Ok?
      && InGroup(ProcessHost(inv, endpoint, JObj(m)).inventory, GroupOf(GroupExtractors[j].1, rec).value, h)
  {
    var rec := Annotate(m, endpoint);
    var vars := FillHostVariables(h, rec, VariableExtractors);
    var groups := FillHostGroupVariables(h, rec, GroupExtractors);
    var ops := HostOps(endpoint, JObj(m)).ops;
    assert ops == RegisterHost(h, m) + (vars.ops + groups.ops);
    GroupCallsAtIndex(h, rec, GroupExtractors, j);
    assert groups.ops[3 * j + 2] in groups.ops;
    ApplyMembership(inv, ops, GroupOf(GroupExtractors[j].1, rec).value, h);
  }

  /** When the variable fill completes and the first group extractor that
      raises returned a value (only the sanitiser raised), the host keeps
      that value. */
  lemma GroupsFailLastWrite(inv: Inventory, endpoint: string, m: Record, h: string)
    requires "name" in m && m["name"] == JStr(h) && h != ""
    requires FillHostVariables(h, Annotate(m, endpoint), VariableExtractors).failure.None?
    ensures var rec := Annotate(m, endpoint);
      var k := FirstGroupFailure(rec, GroupExtractors);
      var out := ProcessHost(inv, endpoint, JObj(m)).inventory;
      k < |GroupExtractors| && GroupExtractors[k].1(rec).Ok? ==>
        && (h, GroupExtractors[k].0) in out.vars
        && out.vars[(h, GroupExtractors[k].0)] == GroupExtractors[k].1(rec).value
  {
    var rec := Annotate(m, endpoint);
    var groups := FillHostGroupVariables(h, rec, GroupExtractors);
    var k := FirstGroupFailure(rec, GroupExtractors);
    if k < |GroupExtractors| && GroupExtractors[k].1(rec).Ok? {
      GroupCallsLast(h, rec, GroupExtractors);
      assert groups.ops[3 * k] in groups.ops;
      GroupWriteKept(inv, endpoint, m, h, GroupExtractors[k].0, GroupExtractors[k].1(rec).value);
    }
  }

  /** The memberships the group fill adds are exactly this host in the groups
      of the extractors before the first failing one. */
  lemma GroupMembersExactly(h: string, host: Record, rules: seq<(string, Extractor)>, g: string, x: string)
    ensures AddToGroup(g, x) in FillHostGroupVariables(h, host, rules).ops <==>
      x == h && exists j :: 0 <= j < FirstGroupFailure(host, rules) && GroupOf(rules[j].1, host) == Ok(g)
  {
    var ops := FillHostGroupVariables(h, host, rules).ops;
    if AddToGroup(g, x) in ops {
      var j := GroupCallsMemberBefore(h, host, rules, g, x);
    }
    if x == h && exists j :: 0 <= j < FirstGroupFailure(host, rules) && GroupOf(rules[j].1, host) == Ok(g) {
      var j :| 0 <= j < FirstGroupFailure(host, rules) && GroupOf(rules[j].1, host) == Ok(g);
      GroupCallsAtIndex(h, host, rules, j);
      assert ops[3 * j + 2] == AddToGroup(g, h);
    }
  }

  /** When the variable fill completes, the host joins exactly the groups of
      the group extractors before the first one that raises. */
  lemma GroupsFailMembership(inv: Inventory, endpoint: string, m: Record, h: string, g: string)
    requires "name" in m && m["name"] == JStr(h) && h != ""
    requires FillHostVariables(h, Annotate(m, endpoint), VariableExtractors).failure.None?
    ensures var rec := Annotate(m, endpoint);
      InGroup(ProcessHost(inv, endpoint, JObj(m)).inventory, g, h) <==>
        || InGroup(inv, g, h)
        || exists j :: 0 <= j < FirstGroupFailure(rec, GroupExtractors) && GroupOf(GroupExtractors[j].1, rec) == Ok(g)
  {
    var rec := Annotate(m, endpoint);
    var vars := FillHostVariables(h, rec, VariableExtractors);
    var groups := FillHostGroupVariables(h, rec, GroupExtractors);
    var ops := HostOps(endpoint, JObj(m)).ops;
    assert ops == RegisterHost(h, m) + (vars.ops + groups.ops);
    ApplyMembership(inv, ops, g, h);
    if AddToGroup(g, h) in vars.ops {
      var i := VariableWrite(h, rec, AddToGroup(g, h));
    }
    GroupMembersExactly(h, rec, GroupExtractors, g, h);
  }

  /** A group extractor after the first failing one writes nothing. */
  lemma GroupsFailUnwritten(inv: Inventory, endpoint: string, m: Record, h: string, j: nat)
    requires "name" in m && m["name"] == JStr(h) && h != ""
    requires FillHostVariables(h, Annotate(m, endpoint), VariableExtractors).failure.None?
    requires FirstGroupFailure(Annotate(m, endpoint), GroupExtractors) < j < |GroupExtractors|
    ensures var out := ProcessHost(inv, endpoint, JObj(m)).inventory;
      && ((h, GroupExtractors[j].0) in out.vars <==> (h, GroupExtractors[j].0) in inv.vars)
      && ((h, GroupExtractors[j].0) in inv.vars ==> out.vars[(h, GroupExtractors[j].0)] == inv.vars[(h, GroupExtractors[j].0)])
  {
    var rec := Annotate(m, endpoint);
    var vars := FillHostVariables(h, rec, VariableExtractors);
    var groups := FillHostGroupVariables(h, rec, GroupExtractors);
    var ops := HostOps(endpoint, JObj(m)).ops;
    var key := GroupExtractors[j].0;
    assert ops == RegisterHost(h, m) + (vars.ops + groups.ops);
    TableKeysDistinct();
    forall op | op in ops && op.SetVar? ensures (op.host, op.key) != (h, key) {
      if op in vars.ops {
        var i := VariableWrite(h, rec, op);
      } else if op in groups.ops {
        var i := GroupCallsWriteBefore(h, rec, GroupExtractors, op);
      } else {
        assert op.key == "ansible_host";
      }
    }
    ApplyUntouchedVar(inv, ops, h, key);
  }

  /** A host whose variable extractor raises: the exception is passed on, the
      host joins no group and every group extractor's variable is as it was. */
  lemma ProcessHostVariablesFail(inv: Inventory, endpoint: string, m: Record, h: string)
    requires "name" in m && m["name"] == JStr(h) && h != ""
    requires FillHostVariables(h, Annotate(m, endpoint), VariableExtractors).failure.Some?
    ensures var out := ProcessHost(inv, endpoint, JObj(m));
      && out.failure == FillHostVariables(h, Annotate(m, endpoint), VariableExtractors).failure
      && (forall g :: InGroup(out.inventory, g, h) <==> InGroup(inv, g, h))
      && forall j :: 0 <= j < |GroupExtractors| ==>
           && ((h, GroupExtractors[j].0) in out.inventory.vars <==> (h, GroupExtractors[j].0) in inv.vars)
           && ((h, GroupExtractors[j].0) in inv.vars ==> out.inventory.vars[(h, GroupExtractors[j].0)] == inv.vars[(h, GroupExtractors[j].0)])
  {
    VariablesFailWrites(inv, endpoint, m, h);
    VariablesFailSkipsGroups(inv, endpoint, m, h);
  }

  /** A host whose variable fill completes, with `k` the first group extractor
      whose value or group name raises: the group fill's exception is passed
      on, every extractor before `k` has written its value and put the host in
      its group, and the extractors after `k` have written nothing. */
  lemma ProcessHostGroupsFail(inv: Inventory, endpoint: string, m: Record, h: string)
    requires "name" in m && m["name"] == JStr(h) && h != ""
    requires FillHostVariables(h, Annotate(m, endpoint), VariableExtractors).failure.None?
    ensures var rec := Annotate(m, endpoint);
      var k := FirstGroupFailure(rec, GroupExtractors);
      var out := ProcessHost(inv, endpoint, JObj(m));
      && out.failure == FillHostGroupVariables(h, rec, GroupExtractors).failure
      && (forall j :: 0 <= j < k ==>
            && GroupExtractors[j].1(rec).Ok? && GroupOf(GroupExtractors[j].1, rec).Ok?
            && (h, GroupExtractors[j].0) in out.inventory.vars
            && out.inventory.vars[(h, GroupExtractors[j].0)] == GroupExtractors[j].1(rec).value
            && InGroup(out.inventory, GroupOf(GroupExtractors[j].1, rec).value, h))
      && forall j :: k < j < |GroupExtractors| ==>
           && ((h, GroupExtractors[j].0) in out.inventory.vars <==> (h, GroupExtractors[j].0) in inv.vars)
           && ((h, GroupExtractors[j].0) in inv.vars ==> out.inventory.vars[(h, GroupExtractors[j].0)] == inv.vars[(h, GroupExtractors[j].0)])
  {
    var rec := Annotate(m, endpoint);
    var k := FirstGroupFailure(rec, GroupExtractors);
    GroupsFailVariables(inv, endpoint, m, h);
    forall j | 0 <= j < k
      ensures var out := ProcessHost(inv, endpoint, JObj(m)).inventory;
        && GroupExtractors[j].1(rec).Ok? && GroupOf(GroupExtractors[j].1, rec).Ok?
        && (h, GroupExtractors[j].0) in out.vars
        && out.vars[(h, GroupExtractors[j].0)] == GroupExtractors[j].1(rec).value
        && InGroup(out, GroupOf(GroupExtractors[j].1, rec).value, h)
    {
      GroupsFailKeptAt(inv, endpoint, m, h, j);
      GroupsFailJoinedAt(inv, endpoint, m, h, j);
    }
    forall j | k < j < |GroupExtractors|
      ensures var out := ProcessHost(inv, endpoint, JObj(m)).inventory;
        && ((h, GroupExtractors[j].0) in out.vars <==> (h, GroupExtractors[j].0) in inv.vars)
        && ((h, GroupExtractors[j].0) in inv.vars ==> out.vars[(h, GroupExtractors[j].0)] == inv.vars[(h, GroupExtractors[j].0)])
    {
      GroupsFailUnwritten(inv, endpoint, m, h, j);
    }
  }

  /** How a host that raises part-way leaves the inventory. Calls made before
      the exception stay applied; nothing after it runs. When a variable
      extractor raises, its exception is passed on and the host joins no
      group and keeps every group extractor's variable as it was. Otherwise,
      with `k` the first group extractor whose value or group name raises, the
      group fill's exception is passed on, every extractor before `k` has
      written its value and put the host in its group, and the extractors
      after `k` have written nothing. */
  lemma ProcessHostFailure(inv: Inventory, endpoint: string, m: Record, h: string)
    requires "name" in m && m["name"] == JStr(h) && h != ""
    ensures var rec := Annotate(m, endpoint);
      var vars := FillHostVariables(h, rec, VariableExtractors);
      var out := ProcessHost(inv, endpoint, JObj(m));
      vars.failure.Some? ==>
        && out.failure == vars.failure
        && (forall g :: InGroup(out.inventory, g, h) <==> InGroup(inv, g, h))
        && forall j :: 0 <= j < |GroupExtractors| ==>
             && ((h, GroupExtractors[j].0) in out.inventory.vars <==> (h, GroupExtractors[j].0) in inv.vars)
             && ((h, GroupExtractors[j].0) in inv.vars ==> out.inventory.vars[(h, GroupExtractors[j].0)] == inv.vars[(h, GroupExtractors[j].0)])
    ensures var rec := Annotate(m, endpoint);
      var vars := FillHostVariables(h, rec, VariableExtractors);
      var k := FirstGroupFailure(rec, GroupExtractors);
      var out := ProcessHost(inv, endpoint, JObj(m));
      vars.failure.None? ==>
        && out.failure == FillHostGroupVariables(h, rec, GroupExtractors).failure
        && (forall j :: 0 <= j < k ==>
              && GroupExtractors[j].1(rec).Ok? && GroupOf(GroupExtractors[j].1, rec).Ok?
              && (h, GroupExtractors[j].0) in out.inventory.vars
              && out.inventory.vars[(h, GroupExtractors[j].0)] == GroupExtractors[j].1(rec).value
              && InGroup(out.inventory, GroupOf(GroupExtractors[j].1, rec).value, h))
        && forall j :: k < j < |GroupExtractors| ==>
             && ((h, GroupExtractors[j].0) in out.inventory.vars <==> (h, GroupExtractors[j].0) in inv.vars)
             && ((h, GroupExtractors[j].0) in inv.vars ==> out.inventory.vars[(h, GroupExtractors[j].0)] == inv.vars[(h, GroupExtractors[j].0)])
  {
    if FillHostVariables(h, Annotate(m, endpoint), VariableExtractors).failure.Some? {
      ProcessHostVariablesFail(inv, endpoint, m, h);
    } else {
      ProcessHostGroupsFail(inv, endpoint, m, h);
    }
  }

  /** Processing the same record a second time leaves the inventory as the
      first time did, and fails or succeeds the same way. */
  lemma ProcessHostIdempotent(inv: Inventory, endpoint: string, host: Json)
    ensures ProcessHost(ProcessHost(inv, endpoint, host).inventory, endpoint, host)
         == ProcessHost(inv, endpoint, host)
  {
    ApplyTwice(inv, HostOps(endpoint, host).ops);
  }

  // ---------------------------------------------------------------------------
  // All hosts

  /** Running one piece of processing, then another unless the first raised:
      the first one's calls are always made, and the whole completes exactly
      when both do. */
  function Then(first: Emitted, next: Emitted): (e: Emitted)
    ensures first.ops <= e.ops
    ensures e.failure.None? <==> first.failure.None? && next.failure.None?
  {
    if first.failure.Some? then first else Emitted(first.ops + next.ops, next.failure)
  }

  /** Sequencing is associative: where the loops split the calls does not matter. */
  lemma ThenAssociative(a: Emitted, b: Emitted, c: Emitted)
    ensures Then(Then(a, b), c) == Then(a, Then(b, c))
  {
    if a.failure.None? && b.failure.None? {
      assert (a.ops + b.ops) + c.ops == a.ops + (b.ops + c.ops);
    }
  }

  /** The inner loop of `parse` over one endpoint's hosts, stopping at the
      first host that raises. */
  function EndpointOps(endpoint: string, hosts: seq<Json>): (e: Emitted)
    ensures e.failure.None? <==> forall i :: 0 <= i < |hosts| ==> HostOps(endpoint, hosts[i]).failure.None?
    decreases |hosts|
  {
    if hosts == [] then Emitted([], None)
    else
      assert forall i :: 1 <= i < |hosts| ==> hosts[i] == hosts[1..][i - 1];
      Then(HostOps(endpoint, hosts[0]), EndpointOps(endpoint, hosts[1..]))
  }

  /** The outer loop of `parse` over `get_devices().items()`. */
  function DevicesOps(devices: seq<(string, seq<Json>)>): (e: Emitted)
    ensures e.failure.None? <==>
      forall d, i :: 0 <= d < |devices| && 0 <= i < |devices[d].1| ==> HostOps(devices[d].0, devices[d].1[i]).failure.None?
    decreases |devices|
  {
    if devices == [] then Emitted([], None)
    else
      assert forall d :: 1 <= d < |devices| ==> devices[d] == devices[1..][d - 1];
      Then(EndpointOps(devices[0].0, devices[0].1), DevicesOps(devices[1..]))
  }

  /** `get_devices`: the switches under "fortiswitch", then the access points
      under "fortiap". Fetching the two lists is left to the caller. */
  function GetDevices(switches: seq<Json>, accessPoints: seq<Json>): seq<(string, seq<Json>)> {
    [("fortiswitch", switches), ("fortiap", accessPoints)]
  }

  /** The inventory-building part of `parse` on already fetched device lists. */
  function Parse(inv: Inventory, devices: seq<(string, seq<Json>)>): Run {
    var e := DevicesOps(devices);
    Run(Apply(inv, e.ops), e.failure)
  }

  /** One step of the inner loop. */
  lemma EndpointOpsStep(endpoint: string, host: Json, hosts: seq<Json>)
    ensures EndpointOps(endpoint, [host] + hosts) == Then(HostOps(endpoint, host), EndpointOps(endpoint, hosts))
  {
    assert ([host] + hosts)[1..] == hosts;
  }

  /** One step of the outer loop. */
  lemma DevicesOpsStep(endpoint: string, hosts: seq<Json>, rest: seq<(string, seq<Json>)>)
    ensures DevicesOps([(endpoint, hosts)] + rest) == Then(EndpointOps(endpoint, hosts), DevicesOps(rest))
  {
    assert ([(endpoint, hosts)] + rest)[1..] == rest;
  }

  /** `parse` skips an endpoint without hosts. */
  lemma ParseSkipsEmptyEndpoint(inv: Inventory, endpoint: string, rest: seq<(string, seq<Json>)>)
    ensures Parse(inv, [(endpoint, [])] + rest) == Parse(inv, rest)
  {
    DevicesOpsStep(endpoint, [], rest);
    assert DevicesOps([(endpoint, [])] + rest) == DevicesOps(rest);
  }

  /** The calls of `parse` start with those of its first host. */
  lemma DevicesOpsHead(endpoint: string, host: Json, hosts: seq<Json>, rest: seq<(string, seq<Json>)>)
    ensures DevicesOps([(endpoint, [host] + hosts)] + rest) ==
      Then(HostOps(endpoint, host), DevicesOps([(endpoint, hosts)] + rest))
  {
    EndpointOpsStep(endpoint, host, hosts);
    DevicesOpsStep(endpoint, [host] + hosts, rest);
    DevicesOpsStep(endpoint, hosts, rest);
    ThenAssociative(HostOps(endpoint, host), EndpointOps(endpoint, hosts), DevicesOps(rest));
  }

  /** `parse` processes the hosts one after another: the first host is
      processed and, unless it raised, the others follow on the inventory it
      left. */
  lemma ParseHostByHost(inv: Inventory, endpoint: string, host: Json, hosts: seq<Json>, rest: seq<(string, seq<Json>)>)
    ensures Parse(inv, [(endpoint, [host] + hosts)] + rest) ==
      var r := ProcessHost(inv, endpoint, host);
      if r.failure.Some? then r else Parse(r.inventory, [(endpoint, hosts)] + rest)
  {
    DevicesOpsHead(endpoint, host, hosts, rest);
    var first := HostOps(endpoint, host);
    if first.failure.None? {
      ApplyConcat(inv, first.ops, DevicesOps([(endpoint, hosts)] + rest).ops);
    }
  }

  /** `parse` on the fetched devices processes every switch before any access
      point, and reaches the access points only when no switch raised. */
  lemma ParseSwitchesFirst(inv: Inventory, switches: seq<Json>, accessPoints: seq<Json>)
    ensures Parse(inv, GetDevices(switches, accessPoints)) ==
      var r := Parse(inv, [("fortiswitch", switches)]);
      if r.failure.Some? then r else Parse(r.inventory, [("fortiap", accessPoints)])
  {
    var sw := EndpointOps("fortiswitch", switches);
    var ap := EndpointOps("fortiap", accessPoints);
    DevicesOpsStep("fortiswitch", switches, [("fortiap", accessPoints)]);
    DevicesOpsStep("fortiswitch", switches, []);
    DevicesOpsStep("fortiap", accessPoints, []);
    assert [("fortiswitch", switches)] + [] == [("fortiswitch", switches)];
    assert [("fortiap", accessPoints)] + [] == [("fortiap", accessPoints)];
    assert sw.ops + [] == sw.ops && ap.ops + [] == ap.ops;
    if sw.failure.None? {
      ApplyConcat(inv, sw.ops, DevicesOps([("fortiap", accessPoints)]).ops);
    }
  }

  /** Running `parse` a second time on the same devices changes nothing. */
  lemma ParseIdempotent(inv: Inventory, devices: seq<(string, seq<Json>)>)
    ensures Parse(Parse(inv, devices).inventory, devices) == Parse(inv, devices)
  {
    ApplyTwice(inv, DevicesOps(devices).ops);
  }

  // ---------------------------------------------------------------------------
  // Inventory source files

  /** `verify_file`: the base class's verdict on `path` (the file exists and is
      readable) is a parameter; the plugin adds the name test. */
  function VerifyFile(path: string, baseAccepts: bool): (valid: bool)
    ensures valid <==> (baseAccepts &&
      ((exists stem :: path == stem + "fortigate.yaml") || (exists stem :: path == stem + "fortigate.yml")))
  {
    EndsWithIsConcat(path, "fortigate.yaml");
    EndsWithIsConcat(path, "fortigate.yml");
    baseAccepts && (EndsWith(path, "fortigate.yaml") || EndsWith(path, "fortigate.yml"))
  }
}

=== FILE: text.dfy ===
/** String operations: `str.lower`, `str.isdigit`, `str.replace` and
    `str.endswith` as the plugin uses them, and the first/last-occurrence scans
    that stand in for its regular expressions (the plugin itself never calls
    `find` or `rfind`). Lower-casing and digit tests are modelled over ASCII only: Python's
    `str.lower` and `str.isdigit` also act on non-ASCII letters and digits,
    which this model treats as ordinary characters. */
module Text {
  import opened Wrappers

  predicate IsDigit(c: char) {
    '0' <= c <= '9'
  }

  predicate IsUpper(c: char) {
    'A' <= c <= 'Z'
  }

  function LowerChar(c: char): (r: char)
    ensures !IsUpper(r)
    ensures IsUpper(c) ==> r as int == c as int + 32
    ensures !IsUpper(c) ==> r == c
  {
    if IsUpper(c) then (c as int + 32) as char else c
  }

  /** `s.lower()`, character by character. */
  function Lower(s: string): (r: string)
    ensures |r| == |s|
    ensures forall i :: 0 <= i < |s| ==> r[i] == LowerChar(s[i])
  {
    if s == [] then [] else [LowerChar(s[0])] + Lower(s[1..])
  }

  /** A lower-cased string holds no upper-case letter and is a fixed point of
      lower-casing: `s.lower().lower() == s.lower()`. */
  lemma {:induction false} LowerIsFixedPoint(s: string)
    ensures forall i :: 0 <= i < |s| ==> !IsUpper(Lower(s)[i])
    ensures Lower(Lower(s)) == Lower(s)
  {
    if s != [] {
      LowerIsFixedPoint(s[1..]);
      assert Lower(s)[1..] == Lower(s[1..]);
    }
  }

  /** A character that is not a letter occurs in `s.lower()` exactly where it occurs in `s`. */
  lemma LowerKeeps(s: string, c: char)
    requires !IsUpper(c) && !('a' <= c <= 'z')
    ensures c in s <==> c in Lower(s)
  {
    if c in s {
      var i :| 0 <= i < |s| && s[i] == c;
      assert Lower(s)[i] == c;
    }
    if c in Lower(s) {
      var i :| 0 <= i < |s| && Lower(s)[i] == c;
      assert s[i] == c;
    }
  }

  /** The position of the first `c` in `s`, or None when there is none: the
      scan behind the patterns `^[^-]*` and `^[^-]*-v`. */
  function IndexOf(s: string, c: char): (r: Option<nat>)
    ensures r.None? <==> c !in s
    ensures r.Some? ==> r.value < |s| && s[r.value] == c && c !in s[..r.value]
  {
    if s == [] then None
    else if s[0] == c then Some(0)
    else match IndexOf(s[1..], c)
      case None => None
      case Some(i) =>
        assert s[..i + 1] == [s[0]] + s[1..][..i];
        Some(i + 1)
  }

  /** Any first occurrence is the one `IndexOf` finds. */
  lemma IndexOfIsFirst(s: string, c: char, i: nat)
    requires i < |s| && s[i] == c && c !in s[..i]
    ensures IndexOf(s, c) == Some(i)
  {
    assert s[i] in s;
  }

  /** The position of the last `c` in `s`, or None when there is none: the
      scan behind the greedy `.*-` of `-.*-(.*)`. */
  function LastIndexOf(s: string, c: char): (r: Option<nat>)
    ensures r.None? <==> c !in s
    ensures r.Some? ==> r.value < |s| && s[r.value] == c && c !in s[r.value + 1..]
  {
    if s == [] then None
    else if s[|s| - 1] == c then Some(|s| - 1)
    else
      var init := s[..|s| - 1];
      assert s == init + [s[|s| - 1]];
      match LastIndexOf(init, c)
      case None => None
      case Some(i) =>
        assert s[i + 1..] == init[i + 1..] + [s[|s| - 1]];
        Some(i)
  }

  /** `s.replace(target, with)` for single characters. */
  function Replace(s: string, target: char, with: char): string {
    if s == [] then []
    else [if s[0] == target then with else s[0]] + Replace(s[1..], target, with)
  }

  /** `str.replace` of one character keeps the length, puts `with` wherever
      `target` was and keeps every other character in place. */
  lemma {:induction false} ReplacePointwise(s: string, target: char, with: char)
    ensures |Replace(s, target, with)| == |s|
    ensures forall i :: 0 <= i < |s| ==>
      Replace(s, target, with)[i] == (if s[i] == target then with else s[i])
  {
    if s != [] {
      ReplacePointwise(s[1..], target, with);
      assert forall i :: 1 <= i < |s| ==> s[i] == s[1..][i - 1];
    }
  }

  /** `p` is what the greedy pattern `[^-]*` matches at the start of `s`:
      the longest prefix of `s` holding no `-`. */
  predicate IsDashFreePrefix(s: string, p: string) {
    p <= s && '-' !in p && (|p| == |s| || s[|p|] == '-')
  }

  /** `s.endswith(suffix)`. */
  predicate EndsWith(s: string, suffix: string) {
    |suffix| <= |s| && s[|s| - |suffix|..] == suffix
  }

  /** `s.endswith(suffix)` holds exactly when `s` is some text followed by `suffix`. */
  lemma EndsWithIsConcat(s: string, suffix: string)
    ensures EndsWith(s, suffix) <==> exists stem :: s == stem + suffix
  {
    if EndsWith(s, suffix) {
      assert s == s[..|s| - |suffix|] + suffix;
    }
    if exists stem :: s == stem + suffix {
      var stem :| s == stem + suffix;
      assert s[|s| - |suffix|..] == suffix;
    }
  }
}

=== FILE: wrappers.dfy ===
/** Failure-compatible wrappers used throughout the model. */
module Wrappers {

  /** An optional value, standing for Python's "value or None" where that is not a JSON value. */
  datatype Option<+T> = None | Some(value: T)

  /** The outcome of a call that either returns a value or raises an exception. */
  datatype Result<+T, +E> = Ok(value: T) | Err(error: E) {

    predicate IsFailure() {
      Err?
    }

    function PropagateFailure<U>(): Result<U, E>
      requires Err?
    {
      Err(error)
    }

    function Extract(): T
      requires Ok?
    {
      value
    }
  }
}
